=== FILE: README.md ===
# A verified model of the storefront theme's logic

The theme's script, `assets/theme.js`, is mostly jQuery glue that wires the
page to events. This project models the parts of it that compute something,
and proves what each part promises:

- **Array helpers** (`slate.utils`, module `SlateUtils`): `findInstance`,
  `removeInstance`, `compact` and `defaultTo`, over a small model of
  JavaScript values, truthiness and `===`.
- **Section registry** (`theme.Sections`, module `Sections`): a class holding
  the constructors map and the instances array, with `createInstance`,
  `_findInstance`, `_removeInstance` and `register`.
- **Money formatting** (`theme.Currency.formatMoney`, module `Currency`):
  - the placeholder pattern `{{ name }}`;
  - the five format names;
  - thousands grouping with the regular expression the code uses;
  - `toFixed` on whole cents (two decimals, or whole units rounded half up);
  - an empty format falls back to `"$"`, and a template without a placeholder
    throws (modelled as `Failure`).
- **Image URLs** (`theme.Images.getSizedImageUrl` and `removeProtocol`, module
  `Images`).
- **Variant selection** (`slate.Variants`, module `Variants`): a class holding
  `currentVariant`, the log of events triggered on the container, the master
  select's value and the history URL. Its handler:
  - builds the selection from the option controls;
  - scans the catalog for the variant it selects;
  - emits `variantChange`, then the image, price and SKU events.
- **Quantity stepper** (`theme.QtySelector`, module `QtySelector`):
  `validateQty`, `addQty`, `subtractQty`, `changeQty` and the three handlers,
  on a class holding the input's text and the event log.
- **Sticky header** (`stickyHeaderScroll`, module `StickyHeader`): a two-state
  machine with threshold 250.
- **Testimonials** (module `Testimonials`): the slides-to-show clamp.
- **Fading images** (module `FadingImages`): the wrap-around image and title
  counters.

Two helper modules hold shared vocabulary: `Wrappers` (`Option`, `Result`) and
`Numerals` (decimal numerals and their values).

Where the code does something other than a reader of its comments and names
would expect, the model follows the code (the two exceptions, where a class
carries the corrected behaviour and the code as written is modelled beside it,
are listed under Findings and Left out):

- The variant scan keeps overwriting its `found` variable, so when several
  variants agree with the selection the **last** one in catalog order is
  returned, not the first (`Variants.LastMatchIndex`, `Variants.LaterMatchWins`).
- The code emits no availability event; only image, price and SKU changes are
  announced.
- An unrecognised placeholder name is replaced by the empty string, not
  reported as an error (`Currency.FormatMoneyReplacesFirstPlaceholder`).
- A template with no placeholder at all makes `formatMoney` throw, because
  `match` returns null. It is modelled as `Failure(NoPlaceholder)`.

## Model

| member | source | states |
|---|---|---|
| Numerals.NatToString | assets/theme.js:646-648 | the numeral `String(id)` writes: at least one digit, all digits, no leading zero |
| Numerals.NatToStringRoundTrip | assets/theme.js:646-648 | reading the numeral of n back gives n |
| SlateUtils.FirstMatch | assets/theme.js:21-27 | the index of the first record whose key is strictly equal to the value; no earlier record matches; None exactly when none matches |
| SlateUtils.LastMatch | assets/theme.js:36-46 | the index of the last matching record; no later record matches; None exactly when none matches |
| SlateUtils.Spliced | assets/theme.js:39-40 | `splice(i, 1)`: one element shorter, the elements before i in place, those after it moved down by one |
| SlateUtils.WithoutLastMatchRemovesOne | assets/theme.js:36-46 | removal takes out exactly one copy of the last matching record and nothing else; no match remains at or after its place; with no match the array is unchanged |
| SlateUtils.FindInstance | assets/theme.js:21-27 | the loop returns a record exactly when one matches, and then the first such record |
| SlateUtils.RemoveInstance | assets/theme.js:36-46 | the array changed in place is the old one without its last matching record, and the same array is returned |
| SlateUtils.Kept | assets/theme.js:55-68 | the kept elements are all accepted and never outnumber the input |
| SlateUtils.Compact | assets/theme.js:55-68 | the copying loop yields exactly the accepted elements in their order |
| SlateUtils.KeptConcat | assets/theme.js:55-68 | keeping distributes over concatenation, so the relative order of survivors is the input's |
| SlateUtils.KeptCounts | assets/theme.js:55-68 | every accepted value survives as often as it occurs; a rejected value does not survive |
| SlateUtils.CompactValues | assets/theme.js:55-68 | `compact` keeps every truthy value with its multiplicity and drops every falsy one |
| SlateUtils.DefaultTo | assets/theme.js:81-83 | the default replaces null, undefined and NaN, and only those |
| SlateUtils.DefaultToKeepsFalsyValues | assets/theme.js:81-83 | false, 0 and the empty string are kept, unlike with `||` |
| Sections.NewInstance | assets/theme.js:228-232 | the new instance carries the container's id, type and element |
| Sections.OfTypeSelects | assets/theme.js:319 | the selector picks every container of the type, as often as it is on the page, and no container of another type |
| Sections.Built | assets/theme.js:319-321 | one instance per selected container |
| Sections.BuiltElements | assets/theme.js:319-321 | the k-th instance is built from the k-th selected container, so the order is the document's |
| Sections.BuiltStep | assets/theme.js:319-321 | one more container adds its instance at the end |
| Sections.BuiltConcat | assets/theme.js:319-321 | building from two lists is building from each in turn |
| Sections.Sections.constructor | assets/theme.js:203-205 | a new registry has no constructors and no instances |
| Sections.Sections.CreateInstance | assets/theme.js:217-235 | the given constructor or else the registered one builds the instance, appended at the end; with neither, nothing changes |
| Sections.Sections.FindInstance | assets/theme.js:293-299 | the first instance with the id, or none when there is none |
| Sections.Sections.RemoveInstance | assets/theme.js:301-314 | the last instance with the id is spliced out and returned; all others stay in order |
| Sections.Sections.Register | assets/theme.js:316-322 | the constructor is recorded for its type, and one instance per container of that type is appended, in document order |
| Currency.RemoveFirstDot | assets/theme.js:343-345 | a string amount with a '.' becomes one character shorter and keeps every other character as often as it occurs; one without '.' is unchanged |
| Currency.FirstDot | assets/theme.js:343-345 | the place `replace` finds: a '.' with no '.' before it |
| Currency.RemoveFirstDotCutsFirstDot | assets/theme.js:343-345 | exactly the first '.' is cut out; the text before it and after it is kept in place |
| Currency.NumericValue | assets/theme.js:343-357 | a number of cents is read as itself; NaN and null as no number; a string without '.' is a number exactly when it is all digits, and then the number they spell |
| Currency.InsertSeparatorsLength | assets/theme.js:362 | a run of d > 0 digits gains (d-1)/3 separators and keeps its first digit in front; an empty run stays empty |
| Currency.InsertSeparatorsShort | assets/theme.js:362 | three digits or fewer get no separator |
| Currency.InsertSeparatorsBeforeBlock | assets/theme.js:362 | a final block of three digits is preceded by exactly one separator |
| Currency.InsertSeparatorsGroupsByThree | assets/theme.js:362 | the regular-expression replacement groups the digits by three from the right |
| Currency.SplitOnJoin | assets/theme.js:362 | cutting `a + sep + b` at the separator gives the pieces of a followed by the pieces of b |
| Currency.SplitOnWithoutSep | assets/theme.js:362 | a text without the separator is one piece |
| Currency.ConcatAppend | assets/theme.js:362 | joining distributes over concatenation of the pieces |
| Currency.GroupByThreeBlocks | assets/theme.js:362 | the grouped digits cut at the separators spell the digits again; the first block has one to three digits and every other block exactly three |
| Currency.TwoDigits | assets/theme.js:359-363 | the cents part of `toFixed(2)` is always two digits |
| Currency.FormatWithDelimiters | assets/theme.js:351-366 | NaN and null give "0"; the result is never empty and starts with a digit when the separator is not one; with two decimals it ends in the decimal mark and two digits |
| Currency.StyleOf | assets/theme.js:368-384 | a style is selected exactly for the five names; its two separators are distinct and neither is a digit |
| Currency.FormatMoney | assets/theme.js:339-389 | fails exactly when the template (or `$` in place of an empty one) has no placeholder; otherwise the text before and after the first placeholder is kept |
| Currency.DigitsIn | assets/theme.js:362 | the digits of a formatted amount are digits |
| Currency.DigitsInConcat | assets/theme.js:362 | dropping separators distributes over concatenation |
| Currency.DigitsInGrouped | assets/theme.js:362 | dropping the inserted separators gives back the digits |
| Currency.TwoDecimalsReadsBack | assets/theme.js:359-365 | in the two-decimal styles the digits of the result read back as the cents amount exactly |
| Currency.NoDecimalsRoundsHalfUp | assets/theme.js:359-365 | in the no-decimal styles the result is the amount in whole units rounded to nearest, a half up |
| Currency.SpacesEnd | assets/theme.js:347 | the run of `\s` characters from i stops within the text, at a character that is not white space |
| Currency.SpacesEndSkipsSpaces | assets/theme.js:347 | everything the run skips is white space |
| Currency.WordEnd | assets/theme.js:347 | the run of `\w` characters from i stops within the text, at a character that is not a word character |
| Currency.WordEndSkipsWordChars | assets/theme.js:347 | everything the run skips is a word character |
| Currency.WordEndStops | assets/theme.js:347 | the run stops at the first character that is not a word character |
| Currency.PlaceholderAt | assets/theme.js:347 | a match starts at i and spans at least five characters of the text |
| Currency.PlaceholderShape | assets/theme.js:347 | a match starts with `{{`, ends with `}}` and captures a non-empty word |
| Currency.FindPlaceholder | assets/theme.js:368 | what `match` finds is a placeholder at or after i |
| Currency.FindPlaceholderIsLeftmost | assets/theme.js:368 | no placeholder starts before the one found |
| Currency.FindPlaceholderNoneMeansNone | assets/theme.js:368 | `match` returns null only when no placeholder starts anywhere |
| Currency.FormatMoneyThrowsIffNoPlaceholder | assets/theme.js:346-368 | formatMoney fails exactly when the template (or `$` in place of an empty one) has no placeholder |
| Currency.FormatMoneyReplacesFirstPlaceholder | assets/theme.js:368-389 | the result is the template with its first placeholder, and only that one, replaced by the value its name selects; an unrecognised name is replaced by nothing |
| Currency.NotANumberFormatsAsZero | assets/theme.js:355-357 | NaN and null amounts format as 0 in every style |
| Currency.TextDropsFirstDot | assets/theme.js:343-345 | a string amount formats as the cents its digits spell once the first '.' is gone |
| Currency.BarePlaceholderMatches | assets/theme.js:347 | the whole of `{{name}}` matches and captures the name |
| Currency.FormatBarePlaceholder | assets/theme.js:368-386 | a template that is only `{{name}}` becomes the name's formatted value |
| Currency.StyleTable | assets/theme.js:368-384 | the five names select precision 2/0 and the separators listed; every other name, "price" among them, selects none |
| Currency.ExamplePlain | assets/theme.js:369-371 | 123456 cents in the `amount` style read "1,234.56" |
| Currency.ExampleText | assets/theme.js:343-345 | the string "10.50" is read as 1050 cents |
| Currency.ExampleNoDecimals | assets/theme.js:372-374 | 100, 150 and 149 cents read "1", "2" and "1" |
| Currency.ExampleCommaSeparator | assets/theme.js:375-377 | 123456 cents read "1.234,56" |
| Currency.ExampleCommaNoDecimals | assets/theme.js:378-380 | 1000000 cents read "10.000" |
| Currency.ExampleSpaceSeparator | assets/theme.js:381-383 | 123450 cents read "1 235" |
| Currency.ExampleDefaultFormatThrows | assets/theme.js:340-346 | an empty format falls back to "$", which has no placeholder, so formatMoney throws |
| Images.ProtocolLengthAt | assets/theme.js:496 | the protocol pattern matches "https:" or "http:" or nothing |
| Images.FindProtocol | assets/theme.js:496 | the leftmost protocol match, or none anywhere |
| Images.RemoveProtocol | assets/theme.js:495-497 | the first protocol match is cut out and the text before and after it is kept in place; a path without one is unchanged |
| Images.NoProtocolWithoutH | assets/theme.js:495-497 | a path without an 'h' is unchanged |
| Images.RemoveProtocolOfAbsoluteUrl | assets/theme.js:495-497 | an http or https URL becomes protocol-relative |
| Images.LowerAscii | assets/theme.js:484 | case folding keeps the length |
| Images.LowerAsciiOfLower | assets/theme.js:484 | lower-case text folds to itself |
| Images.QueryStart | assets/theme.js:484 | the first '?' from i, or the end |
| Images.SuffixStart | assets/theme.js:484 | a match it reports is a place at or after i where the extension pattern, case-insensitive and with an optional `?v=` and digits, runs to the end of the URL |
| Images.SuffixStartIsLeftmost | assets/theme.js:484 | the match reported is the leftmost one, and none is reported only when the pattern matches nowhere |
| Images.IndexOf | assets/theme.js:487 | `split` cuts at the first occurrence of the matched text |
| Images.GetSizedImageUrl | assets/theme.js:474-493 | a null size returns the URL; the "master" size returns the URL without its protocol; otherwise the result is null exactly when the size is not "master" and the URL has no image extension |
| Images.SizedImageUrlAsWritten | assets/theme.js:474-493 | as written: a null size returns the URL; the result is null exactly when the size is not "master" and no image extension ends the URL |
| Images.VersionQueryIgnoresCase | assets/theme.js:484 | the `i` flag covers the version query too: "x.jpg?V=1" at "100x" gives "x_100x.jpg?V=1" |
| Images.SizedUrlKeepsOriginal | assets/theme.js:484-490 | the result is `RemoveProtocol(u)`, where `u` is the original with `_size` inserted right before the matched suffix and the text on both sides is kept; when the size holds no '.', the suffix pattern on `u` matches exactly the moved suffix and nowhere before it |
| Images.SizedUrlMatchStays | assets/theme.js:484-490 | after `_size` (no '.') is inserted before a suffix, the leftmost suffix of the result is that suffix at its new place |
| Images.NoSuffixBeforeSize | assets/theme.js:484 | no tail that starts before the end of the inserted `_size` is an image suffix |
| Images.NoSuffixThroughUnderscore | assets/theme.js:484 | a text with '_' after its first character is never an image suffix, since the suffix is a '.' and letters then an optional version query |
| Images.FirstSuffixAt | assets/theme.js:484 | a suffix at m with none before it is the one the pattern matches |
| Images.AsWrittenAgreesOnSingleSuffix | assets/theme.js:486-490 | when the suffix occurs only at the end, cutting at its first occurrence gives the intended URL |
| Images.SuffixOfDoubledExtension | assets/theme.js:484 | in "a.jpg.jpg" the pattern matches only the final ".jpg" |
| Images.SuffixCutAtFirstOccurrence | assets/theme.js:486-490 | for "a.jpg.jpg" the code yields "a_100x.jpg", not "a.jpg_100x.jpg" |
| Variants.CurrentOptionOf | assets/theme.js:525-545 | a control yields its value and index exactly when it is a select or a checked radio or checkbox |
| Variants.SelectionIsActiveControls | assets/theme.js:525-551 | the selection holds the value and index of every active control and nothing else |
| Variants.LastMatchIndex | assets/theme.js:553-576 | a found variant agrees with every selected option; no later variant does; null exactly when none does |
| Variants.Found | assets/theme.js:553-576 | null exactly when no variant agrees with the selection; otherwise an agreeing variant after whose place none agrees |
| Variants.MatchIffAgreesWithActiveControls | assets/theme.js:530-548 | unchecked radios and checkboxes put no constraint on the match, in both directions |
| Variants.UniqueMatchIsFound | assets/theme.js:553-576 | when exactly one variant agrees, it is the one found |
| Variants.LaterMatchWins | assets/theme.js:558-573 | of two agreeing variants the later one is found |
| Variants.ChangeEventsOrder | assets/theme.js:578-599 | `variantChange` comes first and carries the match; the other events carry the new variant, in the order image, price, SKU, with no repeats |
| Variants.ChangeEvents | assets/theme.js:578-635 | one to four events, the first `variantChange` carrying the match; with no match that one alone |
| Variants.ChangeEventsDiff | assets/theme.js:601-635 | the image event fires iff the new featured image's src differs; the price event iff price or compare-at price differs; the SKU event iff the sku differs |
| Variants.NoMatchEmitsOnlyChange | assets/theme.js:578-588 | with no match the only event is `variantChange` carrying null |
| Variants.SameDisplayedAttributesNoDiff | assets/theme.js:601-635 | a variant showing the same price, sku and image as the current one brings `variantChange` alone, whatever its id |
| Variants.SecondChangeEmitsOnlyChange | assets/theme.js:578-599 | a second change with the same selection brings `variantChange` alone |
| Variants.HistoryUrl | assets/theme.js:637-644 | the URL is the scheme, `//`, the host and the path, then `?variant=` and the id |
| Variants.HistoryUrlNamesVariant | assets/theme.js:642 | the id reads back from the tail of the URL |
| Variants.VariantSelector.GetCurrentOptions | assets/theme.js:524-551 | the compacted selection holds chosen entries only |
| Variants.VariantSelector.constructor | assets/theme.js:511-520 | the current variant is the one the controls select at page load; no events yet and no history URL |
| Variants.VariantSelector.GetVariantFromOptions | assets/theme.js:553-576 | the nested scan returns the last variant that agrees with every selected option, or null |
| Variants.VariantSelector.OnSelectChange | assets/theme.js:578-599 | the events appended are the change events; with a match, `currentVariant` becomes it, the master select shows its id and the history URL names it when enabled and supported; with none, nothing else changes |
| Variants.VariantSelector.UpdateImages | assets/theme.js:601-613 | the image event is appended iff the image changed |
| Variants.VariantSelector.UpdatePrice | assets/theme.js:615-624 | the price event is appended iff the price changed |
| Variants.VariantSelector.UpdateSKU | assets/theme.js:626-635 | the SKU event is appended iff the sku changed |
| Variants.VariantSelector.UpdateHistoryState | assets/theme.js:637-644 | the URL is replaced only when `replaceState` exists |
| Variants.VariantSelector.UpdateMasterSelect | assets/theme.js:646-648 | the master select shows the variant id, which reads back as the id |
| Variants.AsWrittenAgreesWithCurrent | assets/theme.js:578-599 | with a current variant, the handler as written does what the model does |
| Variants.OnSelectChangeAsWritten | assets/theme.js:578-604 | the handler throws exactly when a match meets a null current variant, leaving `variantChange` alone and the current variant null; otherwise it emits the change events and a match becomes current |
| Variants.AsWrittenNeverRecovers | assets/theme.js:601-604 | once `currentVariant` is null it stays null, no diff event is ever emitted, and every change that matches throws |
| Variants.MatchWithoutCurrentIsAnnounced | assets/theme.js:590-594 | with no current variant a match is announced in full: price and SKU events, and the image event iff it has an image |
| Variants.ColorSizeExample | assets/theme.js:553-599 | with variants (Red,S,1000), (Red,M,1200), (Blue,S,1100): Blue/S finds the third, and after Red/S only its price change is announced |
| Variants.ColorSizeNoMatch | assets/theme.js:553-576 | in the same catalog Green/S finds nothing |
| QtySelector.DigitRunEnd | assets/theme.js:1155 | the run of digits from i, and where it stops |
| QtySelector.DigitRunToEnd | assets/theme.js:1155 | a run of digits to the end stops at the end |
| QtySelector.DigitRunEndStops | assets/theme.js:1155 | the run stops at the first non-digit |
| QtySelector.ParseDecimal | assets/theme.js:1155 | a parsed number is a sign, at least one whole digit and an optional point with digits after it, and these parts spell the text back |
| QtySelector.ParseSpelled | assets/theme.js:1155 | every such spelling parses back to its parts, so exactly the texts `[+-]?digits(.digits*)?` parse |
| QtySelector.ValidateQty | assets/theme.js:1154-1162 | text that is not a number, or a number with a non-zero fraction, gives 1 |
| QtySelector.ValidateQtyOfInteger | assets/theme.js:1154-1162 | an integer's numeral is left unchanged |
| QtySelector.ValidateQtyZeroFraction | assets/theme.js:1154-1162 | "12.00" gives 12 |
| QtySelector.ValidateQtyNonZeroFraction | assets/theme.js:1154-1162 | "2.5" gives 1 |
| QtySelector.QtySelector.constructor | assets/theme.js:1064-1067 | the selector keeps the input's minimum, its key and its text, and has announced nothing |
| QtySelector.QtySelector.ChangeQty | assets/theme.js:1149-1152 | the input shows the quantity, which reads back as it, and one event carries it |
| QtySelector.QtySelector.AddQty | assets/theme.js:1136-1139 | the input shows the numeral of n+1 and one event carries n+1 |
| QtySelector.QtySelector.SubtractQty | assets/theme.js:1141-1147 | the input shows the numeral of n-1, or of the minimum when n-1 is not above it, and one event carries that quantity |
| QtySelector.QtySelector.OnPlusClick | assets/theme.js:1120-1123 | the input shows the numeral of the validated old text plus one, and one event carries it |
| QtySelector.QtySelector.OnMinusClick | assets/theme.js:1125-1128 | the input shows the numeral of the validated old text minus one, not below the minimum, and one event carries it |
| QtySelector.QtySelector.OnInputChange | assets/theme.js:1130-1133 | the input is rewritten as the numeral of its validated old text, and one event carries that quantity |
| QtySelector.Subtracted | assets/theme.js:1141-1147 | never below the minimum; one less when above it |
| QtySelector.RepeatedSubtractStaysAtMinimum | assets/theme.js:1141-1147 | however often minus is pressed, the quantity stops at the minimum |
| StickyHeader.StickyHeader.constructor | assets/theme.js:1548-1557 | the header starts unstuck with a recorded offset of 0 and the overlay flag it was given; its classes follow that state |
| StickyHeader.StickyHeader.OnScroll | assets/theme.js:1759-1794 | stuck exactly when the offset is past 250; the offset is recorded only on a flip; the classes follow the state |
| Testimonials.ClampShared | assets/theme.js:3884-3887 | the clamp lowers the shared default to the block count, never raising it |
| Testimonials.SharedAfter | assets/theme.js:3856-3887 | the shared default stays between 0 and 3 and is never above the latest section's block count |
| Testimonials.SharedAfterIsRunningMinimum | assets/theme.js:3856-3887 | as written, the shared default is the smallest block count so far, capped at three |
| Testimonials.SlidesFor | assets/theme.js:3884-3887 | a section shows three slides, or its block count when smaller |
| Testimonials.SharedClampLeaksIntoLaterSections | assets/theme.js:3856-3887 | a one-block section before a five-block one leaves the second showing one slide instead of three |
| Testimonials.SlidesForIgnoresEarlierSections | assets/theme.js:3884-3887 | the intended count is the clamp applied to the default alone, and never below what the shared one gives |
| Testimonials.Testimonials.constructor | assets/theme.js:3867-3897 | small screens show and scroll one slide; otherwise the section's SlidesFor count, never more than its blocks |
| Testimonials.Testimonials.OnBreakpoint | assets/theme.js:3896-3902 | small screens show one slide; large ones the section's own count |
| FadingImages.Successor | assets/theme.js:4141-4144 | the next index stays within 1..n and wraps from n to 1 |
| FadingImages.AdvancedAdds | assets/theme.js:4141-4144 | steps compose |
| FadingImages.AdvancedWithinRange | assets/theme.js:4141-4144 | before the last block, k steps move k blocks on |
| FadingImages.FullCycleReturns | assets/theme.js:4141-4144 | n steps return the counter to where it started |
| FadingImages.FadingImages.constructor | assets/theme.js:4090-4099 | image 1 and title 1 are active over the given number of blocks, and the compensation class is still in place |
| FadingImages.FadingImages.NextImage | assets/theme.js:4124-4147 | the active image moves to its successor and stays on a block; the compensation class is removed once |
| FadingImages.FadingImages.NextTitle | assets/theme.js:4150-4158 | the active title moves to its successor and stays on a block |

## Left out

- jQuery and the DOM: class toggling, element look-ups, focus handling and the
  event plumbing itself. Events are recorded in a log field instead.
- Timers: the sticky header's delayed opening class and the fading images'
  delayed class removal.
- Carousels, players, the ajax cart, maps and the other widgets in the file.
  These are foreign libraries or services outside this model.
- `theme.Images.imageSize` and the other image helpers (preload, loadImage,
  switchImage).
- Sections' load, unload, select and deselect handlers. They only dispatch to
  `_findInstance`, `_removeInstance` and `createInstance`, which are modelled.
- Currency.NumericValue: amounts are whole non-negative cents. A fractional or
  negative number and `toFixed` above 1e21 (exponent form) are not modelled.
  From 2^46 whole units (about 7.04e15 cents) the binary quotient n / 100 can
  no longer hold the cent digits: 7036874417766407 cents print ".06" there,
  while the model prints ".07". A string amount counts as a number only when
  it is all digits once its first '.' is gone. Other text JavaScript reads as
  a number (white space, a sign, an exponent, hex) is treated as NaN.
- QtySelector.ValidateQty: only text of the form `[+-]?digits`, optionally
  followed by '.' and more digits, counts as a number. White space, exponents and other forms JavaScript's
  parseInt/parseFloat/isNaN accept give 1 here. Numbers are exact, not
  doubles: "5.0000000000000001" parses to 5 in JavaScript and is accepted,
  while the model sees a non-zero fraction and gives 1; "9007199254740993"
  rounds to 9007199254740992 in JavaScript and is kept exact here. The `min` attribute is taken
  as an integer, although the code keeps it as a string.
- Variants.Agrees: a control's data-index is compared with the variant's
  option fields only. An index naming another property (id, sku, price) never
  matches. A select whose value is null is not modelled.
- Testimonials.Testimonials.constructor, Testimonials.Testimonials.OnBreakpoint:
  each section clamps its own options and restarts with its own SlidesFor count.
  The shared `defaults` object the code mutates is modelled only by
  `Testimonials.SharedAfter` (see Findings). The `matchLarge` handler
  passes that shared object, so as written a wide-screen restart uses whatever
  the last section left there and the effect also reaches earlier sections.
- Variants.VariantSelector.OnSelectChange, Variants.VariantSelector.UpdateImages,
  Variants.VariantSelector.UpdatePrice, Variants.VariantSelector.UpdateSKU: with
  no current variant the class models the corrected handler, which announces the
  match in full and makes it current. As written, `_updateImages` throws a
  TypeError there, before the price, SKU and current variant are updated; that
  behaviour is `Variants.OnSelectChangeAsWritten` (see Findings).
- FadingImages: `block_count` is a natural number. A missing data-count, with
  which the counter would grow without bound, is not modelled.

## Findings

| source | as written | input that shows it | evidently intended | confidence | as-written member | corrected member |
|---|---|---|---|---|---|---|
| assets/theme.js:601-604 | `_updateImages` reads `this.currentVariant.featured_image` while `currentVariant` may still be null. The TypeError ends the handler after `variantChange`, before `currentVariant` is set, so it stays null for good. | option controls at page load that match no variant, then any change to a selection that matches | with no current variant, announce the match in full and make it current | not executed | Variants.AsWrittenNeverRecovers | Variants.MatchWithoutCurrentIsAnnounced |
| assets/theme.js:486-490 | `src.split(match[0])[0]` keeps the text before the first occurrence of the matched suffix, not the one at the end | "a.jpg.jpg" at size "100x" gives "a_100x.jpg" | "a.jpg_100x.jpg": `_size` inserted before the final extension | not executed | Images.SuffixCutAtFirstOccurrence | Images.GetSizedImageUrl |
| assets/theme.js:3856-3887 | the clamp writes to the module-wide `defaults`, so it stays lowered for every section built later | a section with 1 block, then one with 5: the second shows 1 slide at a time | each section shows min(its block count, 3) | not executed | Testimonials.SharedClampLeaksIntoLaterSections | Testimonials.SlidesFor |

=== FILE: currency.dfy ===
/**
 * theme.Currency.formatMoney (assets/theme.js, lines 339-392): an amount in
 * cents and a money-format template give the template with its placeholder
 * replaced by the formatted amount.
 */
module Currency {
  import opened Wrappers
  import opened Numerals

  /** What formatMoney may be handed as its amount. */
  datatype Amount =
    | Cents(n: nat)     // a number of minor units
    | Text(s: string)   // a string such as "1050" or "10.50"
    | NotANumber        // NaN
    | Missing           // null or undefined

  /** `s.replace('.', '')`: a string pattern replaces its first occurrence only. */
  function RemoveFirstDot(s: string): (r: string)
    ensures '.' in s ==> |r| == |s| - 1
    ensures '.' !in s ==> r == s
    ensures forall c :: c != '.' ==> multiset(r)[c] == multiset(s)[c]
  {
    if s == [] then []
    else
      assert s == [s[0]] + s[1..];
      if s[0] == '.' then s[1..] else [s[0]] + RemoveFirstDot(s[1..])
  }

  /** The index of the first '.' of a string that has one. */
  function FirstDot(s: string): (k: nat)
    requires '.' in s
    ensures k < |s| && s[k] == '.' && '.' !in s[..k]
  {
    if s[0] == '.' then 0
    else
      assert s == [s[0]] + s[1..];
      var k := 1 + FirstDot(s[1..]);
      assert s[..k] == [s[0]] + s[1..][..k - 1];
      k
  }

  /** Exactly the first '.' is cut out; every character around it stays in place. */
  lemma {:induction false} RemoveFirstDotCutsFirstDot(s: string)
    requires '.' in s
    ensures RemoveFirstDot(s) == s[..FirstDot(s)] + s[FirstDot(s) + 1..]
  {
    if s[0] == '.' {
      assert s[..0] == [];
    } else {
      RemoveFirstDotCutsFirstDot(s[1..]);
      CutAfterHead(s);
    }
  }

  /** The cut in the tail, with the head put back in front, is the cut in the whole. */
  lemma {:induction false} CutAfterHead(s: string)
    requires '.' in s && s[0] != '.'
    requires RemoveFirstDot(s[1..]) == s[1..][..FirstDot(s[1..])] + s[1..][FirstDot(s[1..]) + 1..]
    ensures RemoveFirstDot(s) == s[..FirstDot(s)] + s[FirstDot(s) + 1..]
  {
    var t := s[1..];
    var k := FirstDot(t);
    assert FirstDot(s) == k + 1;
    assert RemoveFirstDot(s) == [s[0]] + RemoveFirstDot(t);
    SlicesAfterHead(s, k);
    PrependAssoc(s[0], t[..k], t[k + 1..]);
  }

  /** Slices of a sequence, read through its tail. */
  lemma SlicesAfterHead<T>(s: seq<T>, k: nat)
    requires k + 1 < |s|
    ensures s[..k + 1] == [s[0]] + s[1..][..k]
    ensures s[k + 2..] == s[1..][k + 1..]
  {
  }

  /**
   * The amount as formatWithDelimiters sees it: None when `isNaN(number) ||
   * number == null`. A string is read as a number only when it is all digits
   * once its first '.' is gone (the empty string reads as 0, as Number("") does).
   */
  function NumericValue(a: Amount): (r: Option<nat>)
    ensures a.Cents? ==> r == Some(a.n)
    ensures a.NotANumber? || a.Missing? ==> r.None?
    ensures a.Text? && '.' !in a.s ==> (r.Some? <==> AllDigits(a.s))
    ensures a.Text? && '.' !in a.s && AllDigits(a.s) ==> r == Some(DigitsValue(a.s))
  {
    match a
    case Cents(n) => Some(n)
    case Text(s) =>
      var t := RemoveFirstDot(s);
      if AllDigits(t) then Some(DigitsValue(t)) else None
    case NotANumber => None
    case Missing => None
  }

  // ---------------------------------------------------------------------------
  // Thousands grouping

  /**
   * `digits.replace(/(\d)(?=(\d\d\d)+(?!\d))/g, '$1' + sep)` on a string of
   * digits: a separator goes after every digit that is followed by a positive
   * multiple of three digits up to the end.
   */
  function InsertSeparators(d: string, sep: char): string {
    if d == [] then []
    else [d[0]] + (if |d| > 1 && (|d| - 1) % 3 == 0 then [sep] else []) + InsertSeparators(d[1..], sep)
  }

  /** A run of d digits gains (d-1)/3 separators and keeps its first digit in front. */
  lemma {:induction false} InsertSeparatorsLength(d: string, sep: char)
    ensures d == [] ==> InsertSeparators(d, sep) == []
    ensures d != [] ==> |InsertSeparators(d, sep)| == |d| + (|d| - 1) / 3
    ensures d != [] ==> InsertSeparators(d, sep)[0] == d[0]
  {
    if d != [] {
      InsertSeparatorsLength(d[1..], sep);
    }
  }

  /** Grouping by three from the right: the reading of "every three digits" the separators follow. */
  function GroupByThree(d: string, sep: char): string {
    if |d| <= 3 then d else GroupByThree(d[..|d| - 3], sep) + [sep] + d[|d| - 3..]
  }

  /** Three digits or fewer take no separator. */
  lemma {:induction false} InsertSeparatorsShort(d: string, sep: char)
    requires |d| <= 3
    ensures InsertSeparators(d, sep) == d
  {
    if d != [] {
      InsertSeparatorsShort(d[1..], sep);
      assert d == [d[0]] + d[1..];
    }
  }

  /** A separator before a final block of three digits is exactly the one the regex adds. */
  lemma {:induction false} InsertSeparatorsBeforeBlock(a: string, b: string, sep: char)
    requires |a| > 0 && |b| == 3
    ensures InsertSeparators(a + b, sep) == InsertSeparators(a, sep) + [sep] + b
  {
    if |a| == 1 {
      OneDigitBeforeBlock(a, b, sep);
    } else {
      InsertSeparatorsBeforeBlock(a[1..], b, sep);
      DigitBeforeGroupedBlock(a, b, sep);
    }
  }

  lemma {:induction false} OneDigitBeforeBlock(a: string, b: string, sep: char)
    requires |a| == 1 && |b| == 3
    ensures InsertSeparators(a + b, sep) == InsertSeparators(a, sep) + [sep] + b
  {
    var ab := a + b;
    assert ab[0] == a[0] && ab[1..] == b;
    assert (|ab| - 1) % 3 == 0;
    InsertSeparatorsShort(b, sep);
    assert InsertSeparators(ab, sep) == [a[0]] + [sep] + b;
    assert InsertSeparators(a, sep) == [a[0]] by {
      assert a[1..] == [];
    }
  }

  /** One more leading digit keeps the block after the separator: the gap before it is the same. */
  lemma {:induction false} DigitBeforeGroupedBlock(a: string, b: string, sep: char)
    requires |a| > 1 && |b| == 3
    requires InsertSeparators(a[1..] + b, sep) == InsertSeparators(a[1..], sep) + [sep] + b
    ensures InsertSeparators(a + b, sep) == InsertSeparators(a, sep) + [sep] + b
  {
    var gap: string := if (|a| - 1) % 3 == 0 then [sep] else [];
    var x := InsertSeparators(a[1..], sep);
    assert InsertSeparators(a + b, sep) == [a[0]] + gap + (x + [sep] + b) by {
      HeadTailOfAppend(a, b);
      assert (|a + b| - 1) % 3 == (|a| - 1) % 3 by {
        assert |a + b| - 1 == (|a| - 1) + 3;
      }
    }
    assert InsertSeparators(a, sep) == [a[0]] + gap + x;
    Regroup([a[0]] + gap, x, [sep], b);
  }

  /** Moving a head in front of a three-part tail. */
  lemma Regroup<T>(h: seq<T>, x: seq<T>, y: seq<T>, z: seq<T>)
    ensures h + (x + y + z) == (h + x) + y + z
  {
  }

  /** The regex replacement groups the digits by three from the right. */
  lemma {:induction false} InsertSeparatorsGroupsByThree(d: string, sep: char)
    ensures InsertSeparators(d, sep) == GroupByThree(d, sep)
  {
    if |d| <= 3 {
      InsertSeparatorsShort(d, sep);
    } else {
      var a, b := d[..|d| - 3], d[|d| - 3..];
      assert d == a + b;
      InsertSeparatorsBeforeBlock(a, b, sep);
      InsertSeparatorsGroupsByThree(a, sep);
    }
  }

  /** `s.split(sep)` for a one-character separator: the pieces between separators. */
  function SplitOn(s: string, sep: char): (r: seq<string>)
    ensures |r| >= 1
  {
    if s == [] then [[]]
    else
      var rest := SplitOn(s[1..], sep);
      if s[0] == sep then [[]] + rest else [[s[0]] + rest[0]] + rest[1..]
  }

  /** The pieces joined back together. */
  function Concat(pieces: seq<string>): string {
    if pieces == [] then [] else pieces[0] + Concat(pieces[1..])
  }

  /** Cutting at a separator splits the pieces of the two sides apart. */
  lemma {:induction false} SplitOnJoin(a: string, b: string, sep: char)
    ensures SplitOn(a + [sep] + b, sep) == SplitOn(a, sep) + SplitOn(b, sep)
  {
    var s := a + [sep] + b;
    if a == [] {
      assert s[0] == sep && s[1..] == b;
      assert SplitOn(s, sep) == [[]] + SplitOn(b, sep);
    } else {
      assert s[1..] == a[1..] + [sep] + b;
      SplitOnJoin(a[1..], b, sep);
      SplitOnCharBefore(a, b, sep);
    }
  }

  /** The first character of the left side goes where it went without the right side. */
  lemma {:induction false} SplitOnCharBefore(a: string, b: string, sep: char)
    requires a != []
    requires SplitOn(a[1..] + [sep] + b, sep) == SplitOn(a[1..], sep) + SplitOn(b, sep)
    ensures SplitOn(a + [sep] + b, sep) == SplitOn(a, sep) + SplitOn(b, sep)
  {
    var s := a + [sep] + b;
    assert s[0] == a[0] && s[1..] == a[1..] + [sep] + b;
    var ra, rb := SplitOn(a[1..], sep), SplitOn(b, sep);
    if a[0] == sep {
      PrependAssoc([], ra, rb);
    } else {
      var head := [a[0]] + ra[0];
      HeadTailOfAppend(ra, rb);
      PrependAssoc(head, ra[1..], rb);
    }
  }

  lemma HeadTailOfAppend<T>(p: seq<T>, q: seq<T>)
    requires p != []
    ensures (p + q)[0] == p[0] && (p + q)[1..] == p[1..] + q
  {
  }

  lemma PrependAssoc<T>(x: T, p: seq<T>, q: seq<T>)
    ensures [x] + (p + q) == ([x] + p) + q
  {
  }

  lemma {:induction false} SplitOnWithoutSep(s: string, sep: char)
    requires sep !in s
    ensures SplitOn(s, sep) == [s]
  {
    if s != [] {
      assert s == [s[0]] + s[1..];
      SplitOnWithoutSep(s[1..], sep);
    }
  }

  lemma {:induction false} ConcatAppend(p: seq<string>, q: seq<string>)
    ensures Concat(p + q) == Concat(p) + Concat(q)
  {
    if p != [] {
      assert (p + q)[1..] == p[1..] + q;
      ConcatAppend(p[1..], q);
    } else {
      assert p + q == q;
    }
  }

  /** Pieces shaped like grouped digits: one to three in the first, exactly three in every later one. */
  predicate InBlocksOfThree(pieces: seq<string>) {
    |pieces| >= 1 && 1 <= |pieces[0]| <= 3 && forall k :: 1 <= k < |pieces| ==> |pieces[k]| == 3
  }

  lemma {:induction false} InBlocksOfThreeAppend(pieces: seq<string>, b: string)
    requires InBlocksOfThree(pieces) && |b| == 3
    ensures InBlocksOfThree(pieces + [b])
  {
    var q := pieces + [b];
    assert q[0] == pieces[0];
    forall k | 1 <= k < |q|
      ensures |q[k]| == 3
    {
      if k < |pieces| {
        assert q[k] == pieces[k];
      }
    }
  }

  /**
   * Cut at the separators, a grouped numeral of n >= 1 digits falls into blocks
   * that spell the digits again: the first block holds one to three digits and
   * every later block exactly three.
   */
  lemma {:induction false} GroupByThreeBlocks(d: string, sep: char)
    requires AllDigits(d) && !IsDigit(sep) && |d| >= 1
    ensures Concat(SplitOn(GroupByThree(d, sep), sep)) == d
    ensures InBlocksOfThree(SplitOn(GroupByThree(d, sep), sep))
  {
    if |d| <= 3 {
      assert sep !in d;
      SplitOnWithoutSep(d, sep);
      assert Concat([d]) == d + Concat([]);
    } else {
      var a, b := d[..|d| - 3], d[|d| - 3..];
      GroupByThreeBlocks(a, sep);
      BlockAfterGrouped(a, b, sep);
      assert d == a + b;
    }
  }

  /** Appending a block of three digits to a grouped numeral adds one block to its pieces. */
  lemma {:induction false} BlockAfterGrouped(a: string, b: string, sep: char)
    requires |a| >= 1 && |b| == 3 && AllDigits(b) && !IsDigit(sep)
    requires Concat(SplitOn(GroupByThree(a, sep), sep)) == a
    requires InBlocksOfThree(SplitOn(GroupByThree(a, sep), sep))
    ensures Concat(SplitOn(GroupByThree(a + b, sep), sep)) == a + b
    ensures InBlocksOfThree(SplitOn(GroupByThree(a + b, sep), sep))
  {
    var d := a + b;
    assert d[..|d| - 3] == a && d[|d| - 3..] == b;
    var g := GroupByThree(a, sep);
    assert GroupByThree(d, sep) == g + [sep] + b;
    var pa := SplitOn(g, sep);
    assert sep !in b;
    SplitOnWithoutSep(b, sep);
    SplitOnJoin(g, b, sep);
    assert SplitOn(GroupByThree(d, sep), sep) == pa + [b];
    InBlocksOfThreeAppend(pa, b);
    ConcatAppend(pa, [b]);
    assert Concat([b]) == b + Concat([]);
  }

  // ---------------------------------------------------------------------------
  // formatWithDelimiters

  /** The two fixed-point precisions the template names ask for. */
  datatype Precision = TwoDecimals | NoDecimals

  /** The fractional digits of `toFixed(2)`: the cents, always two digits. */
  function TwoDigits(c: nat): (s: string)
    requires c < 100
    ensures |s| == 2 && AllDigits(s)
  {
    [DigitChar(c / 10), DigitChar(c % 10)]
  }

  /**
   * formatWithDelimiters(number, precision, thousands, decimal). `(n / 100).toFixed(2)`
   * is read here as the whole units, '.', and the two cent digits, which is what
   * it prints while n / 100 stays below 2^46 (beyond that the binary quotient
   * can lose the last cent digit); `toFixed(0)` rounds a half up, which
   * `(n + 50) / 100` gives on integers. NaN and null give 0.
   */
  function FormatWithDelimiters(v: Option<nat>, precision: Precision, thousands: char, decimal: char): (r: string)
    ensures v.None? ==> r == "0"
    ensures |r| >= 1 && (!IsDigit(thousands) ==> IsDigit(r[0]))
    ensures v.Some? && precision == TwoDecimals ==>
      |r| >= 4 && r[|r| - 3] == decimal && AllDigits(r[|r| - 2..])
  {
    match v
    case None => "0"
    case Some(n) =>
      match precision
      case TwoDecimals =>
        InsertSeparatorsLength(NatToString(n / 100), thousands);
        InsertSeparators(NatToString(n / 100), thousands) + [decimal] + TwoDigits(n % 100)
      case NoDecimals =>
        InsertSeparatorsLength(NatToString((n + 50) / 100), thousands);
        InsertSeparators(NatToString((n + 50) / 100), thousands)
  }

  /** The digits of a formatted amount, with separators dropped. */
  function DigitsIn(s: string): (r: string)
    ensures AllDigits(r)
  {
    if s == [] then [] else (if IsDigit(s[0]) then [s[0]] else []) + DigitsIn(s[1..])
  }

  lemma {:induction false} DigitsInConcat(a: string, b: string)
    ensures DigitsIn(a + b) == DigitsIn(a) + DigitsIn(b)
  {
    if a != [] {
      assert (a + b)[1..] == a[1..] + b;
      DigitsInConcat(a[1..], b);
    } else {
      assert a + b == b;
    }
  }

  lemma {:induction false} DigitsInGrouped(d: string, sep: char)
    requires AllDigits(d) && !IsDigit(sep)
    ensures DigitsIn(InsertSeparators(d, sep)) == d
  {
    if d != [] {
      var gap: string := if |d| > 1 && (|d| - 1) % 3 == 0 then [sep] else [];
      DigitsInConcat([d[0]] + gap, InsertSeparators(d[1..], sep));
      DigitsInConcat([d[0]], gap);
      assert DigitsIn([d[0]]) == [d[0]];
      assert DigitsIn(gap) == [] by {
        if gap != [] {
          assert gap[1..] == [];
        }
      }
      DigitsInGrouped(d[1..], sep);
      assert d == [d[0]] + d[1..];
    }
  }

  /** The two-decimal styles lose nothing: the digits of the result read back as the cents. */
  lemma {:induction false} TwoDecimalsReadsBack(n: nat, thousands: char, decimal: char)
    requires !IsDigit(thousands) && !IsDigit(decimal)
    ensures DigitsValue(DigitsIn(FormatWithDelimiters(Some(n), TwoDecimals, thousands, decimal))) == n
  {
    var whole := NatToString(n / 100);
    var cents := TwoDigits(n % 100);
    TwoDecimalsDigits(whole, cents, thousands, decimal);
    NatToStringRoundTrip(n / 100);
    DigitsValueAppend(whole, cents[0]);
    DigitsValueAppend(whole + [cents[0]], cents[1]);
    assert whole + cents == whole + [cents[0]] + [cents[1]];
    var c := n % 100;
    assert DigitValue(cents[0]) == c / 10 && DigitValue(cents[1]) == c % 10;
    assert DigitsValue(whole + cents) == (n / 100) * 100 + (c / 10) * 10 + c % 10;
  }

  /** Dropping the separators from grouped digits, a decimal mark and two cent digits leaves the digits. */
  lemma {:induction false} TwoDecimalsDigits(whole: string, cents: string, thousands: char, decimal: char)
    requires AllDigits(whole) && AllDigits(cents) && |cents| == 2
    requires !IsDigit(thousands) && !IsDigit(decimal)
    ensures DigitsIn(InsertSeparators(whole, thousands) + [decimal] + cents) == whole + cents
  {
    var grouped := InsertSeparators(whole, thousands);
    DigitsInConcat(grouped + [decimal], cents);
    DigitsInConcat(grouped, [decimal]);
    DigitsInGrouped(whole, thousands);
    assert DigitsIn([decimal]) == [] by {
      assert [decimal][1..] == [];
    }
    DigitsInOfDigits(cents);
  }

  /** A text of digits only keeps all of them. */
  lemma {:induction false} DigitsInOfDigits(s: string)
    requires AllDigits(s)
    ensures DigitsIn(s) == s
  {
    if s != [] {
      assert IsDigit(s[0]) && AllDigits(s[1..]);
      DigitsInOfDigits(s[1..]);
      assert s == [s[0]] + s[1..];
    }
  }

  /** The no-decimal styles round to the nearest whole unit, a half rounding up. */
  lemma {:induction false} NoDecimalsRoundsHalfUp(n: nat, thousands: char)
    requires !IsDigit(thousands)
    ensures var units := DigitsValue(DigitsIn(FormatWithDelimiters(Some(n), NoDecimals, thousands, '.')));
      -50 <= n - 100 * units < 50
  {
    DigitsInGrouped(NatToString((n + 50) / 100), thousands);
    NatToStringRoundTrip((n + 50) / 100);
  }

  // ---------------------------------------------------------------------------
  // The placeholder

  /** JavaScript's `\s`. */
  predicate IsSpace(c: char) {
    c in {' ', '\t', '\n', '\r', '\U{000B}', '\U{000C}', '\U{00A0}', '\U{1680}', '\U{2028}', '\U{2029}',
          '\U{202F}', '\U{205F}', '\U{3000}', '\U{FEFF}'}
    || '\U{2000}' <= c <= '\U{200A}'
  }

  /** JavaScript's `\w`. */
  predicate IsWordChar(c: char) {
    'a' <= c <= 'z' || 'A' <= c <= 'Z' || IsDigit(c) || c == '_'
  }

  /** The end of the run of white space starting at i. */
  function SpacesEnd(s: string, i: nat): (j: nat)
    requires i <= |s|
    ensures i <= j <= |s|
    ensures j < |s| ==> !IsSpace(s[j])
    decreases |s| - i
  {
    if i < |s| && IsSpace(s[i]) then SpacesEnd(s, i + 1) else i
  }

  /** Everything SpacesEnd skips is white space. */
  lemma {:induction false} SpacesEndSkipsSpaces(s: string, i: nat)
    requires i <= |s|
    ensures forall k :: i <= k < SpacesEnd(s, i) ==> IsSpace(s[k])
    decreases |s| - i
  {
    if i < |s| && IsSpace(s[i]) {
      SpacesEndSkipsSpaces(s, i + 1);
    }
  }

  /** The end of the run of word characters starting at i. */
  function WordEnd(s: string, i: nat): (j: nat)
    requires i <= |s|
    ensures i <= j <= |s|
    ensures j < |s| ==> !IsWordChar(s[j])
    decreases |s| - i
  {
    if i < |s| && IsWordChar(s[i]) then WordEnd(s, i + 1) else i
  }

  /** Everything WordEnd skips is a word character. */
  lemma {:induction false} WordEndSkipsWordChars(s: string, i: nat)
    requires i <= |s|
    ensures forall k :: i <= k < WordEnd(s, i) ==> IsWordChar(s[k])
    decreases |s| - i
  {
    if i < |s| && IsWordChar(s[i]) {
      WordEndSkipsWordChars(s, i + 1);
    }
  }

  /** The run of word characters from i ends at the first character that is not one. */
  lemma {:induction false} WordEndStops(s: string, i: nat, e: nat)
    requires i <= e < |s| && !IsWordChar(s[e])
    requires forall k :: i <= k < e ==> IsWordChar(s[k])
    ensures WordEnd(s, i) == e
    decreases e - i
  {
    if i < e {
      WordEndStops(s, i + 1, e);
    }
  }

  /** A match of the placeholder pattern: where it starts, the name it captures, where it ends. */
  datatype Placeholder = Placeholder(start: nat, name: string, end: nat)

  /**
   * The match of /\{\{\s*(\w+)\s*\}\}/ that starts at i, if any. White space and
   * word characters are disjoint and neither is '}', so the greedy runs are the
   * only way to match and backtracking finds nothing else.
   */
  function PlaceholderAt(s: string, i: nat): (r: Option<Placeholder>)
    requires i <= |s|
    ensures r.Some? ==> r.value.start == i && i + 5 <= r.value.end <= |s|
  {
    if i + 2 <= |s| && s[i] == '{' && s[i + 1] == '{' then
      var a := SpacesEnd(s, i + 2);
      var b := WordEnd(s, a);
      var c := SpacesEnd(s, b);
      if a < b && c + 2 <= |s| && s[c] == '}' && s[c + 1] == '}' then Some(Placeholder(i, s[a..b], c + 2))
      else None
    else None
  }

  /** A match starts with two '{', ends with two '}' and captures a non-empty word. */
  lemma {:induction false} PlaceholderShape(s: string, i: nat)
    requires i <= |s| && PlaceholderAt(s, i).Some?
    ensures var p := PlaceholderAt(s, i).value;
      s[i] == '{' && s[i + 1] == '{' && s[p.end - 2] == '}' && s[p.end - 1] == '}'
    ensures var p := PlaceholderAt(s, i).value;
      p.name != [] && forall k :: 0 <= k < |p.name| ==> IsWordChar(p.name[k])
  {
    var a := SpacesEnd(s, i + 2);
    var b := WordEnd(s, a);
    var c := SpacesEnd(s, b);
    var name := s[a..b];
    assert PlaceholderAt(s, i).value == Placeholder(i, name, c + 2);
    WordEndSkipsWordChars(s, a);
    forall k | 0 <= k < |name|
      ensures IsWordChar(name[k])
    {
      assert name[k] == s[a + k];
    }
  }

  /** The leftmost placeholder at or after i: what `String.prototype.match` finds. */
  function FindPlaceholder(s: string, i: nat): (r: Option<Placeholder>)
    requires i <= |s|
    ensures r.Some? ==> i <= r.value.start <= |s| && PlaceholderAt(s, r.value.start) == r
    decreases |s| - i
  {
    if PlaceholderAt(s, i).Some? then PlaceholderAt(s, i)
    else if i == |s| then None
    else FindPlaceholder(s, i + 1)
  }

  /** The placeholder found is the leftmost one. */
  lemma {:induction false} FindPlaceholderIsLeftmost(s: string, i: nat)
    requires i <= |s| && FindPlaceholder(s, i).Some?
    ensures forall k :: i <= k < FindPlaceholder(s, i).value.start ==> PlaceholderAt(s, k).None?
    decreases |s| - i
  {
    if PlaceholderAt(s, i).None? {
      assert i < |s|;
      var r := FindPlaceholder(s, i + 1);
      assert FindPlaceholder(s, i) == r;
      FindPlaceholderIsLeftmost(s, i + 1);
      forall k | i <= k < r.value.start
        ensures PlaceholderAt(s, k).None?
      {
        if k == i {
        }
      }
    }
  }

  /** None is found only when there is no placeholder anywhere from i on. */
  lemma {:induction false} FindPlaceholderNoneMeansNone(s: string, i: nat)
    requires i <= |s| && FindPlaceholder(s, i).None?
    ensures forall k :: i <= k <= |s| ==> PlaceholderAt(s, k).None?
    decreases |s| - i
  {
    if i < |s| {
      assert FindPlaceholder(s, i) == FindPlaceholder(s, i + 1);
      FindPlaceholderNoneMeansNone(s, i + 1);
    }
    assert PlaceholderAt(s, i).None?;
  }

  // ---------------------------------------------------------------------------
  // formatMoney

  /** The theme's fallback money format. */
  const DefaultMoneyFormat: string := "$"

  /** `format || moneyFormat`: an empty (or absent) format falls back to the default. */
  function FormatOrDefault(format: string): string {
    if format == "" then DefaultMoneyFormat else format
  }

  /** A template without a placeholder: `match` returns null and reading `[1]` of it throws. */
  datatype FormatError = NoPlaceholder

  /** The precision and the two separators of one placeholder name. */
  datatype Style = Style(precision: Precision, thousands: char, decimal: char)

  /** The five recognised placeholder names; any other selects no style. */
  /** The names formatMoney recognises inside a placeholder. */
  const StyleNames: set<string> := {"amount", "amount_no_decimals", "amount_with_comma_separator",
    "amount_no_decimals_with_comma_separator", "amount_no_decimals_with_space_separator"}

  function StyleOf(name: string): (r: Option<Style>)
    ensures r.Some? <==> name in StyleNames
    ensures r.Some? ==> !IsDigit(r.value.thousands) && !IsDigit(r.value.decimal)
    ensures r.Some? ==> r.value.thousands != r.value.decimal
  {
    if name == "amount" then Some(Style(TwoDecimals, ',', '.'))
    else if name == "amount_no_decimals" then Some(Style(NoDecimals, ',', '.'))
    else if name == "amount_with_comma_separator" then Some(Style(TwoDecimals, '.', ','))
    else if name == "amount_no_decimals_with_comma_separator" then Some(Style(NoDecimals, '.', ','))
    else if name == "amount_no_decimals_with_space_separator" then Some(Style(NoDecimals, ' ', '.'))
    else None
  }

  /** The text that replaces a placeholder: empty for an unrecognised name. */
  function PlaceholderValue(name: string, v: Option<nat>): string {
    match StyleOf(name)
    case None => ""
    case Some(st) => FormatWithDelimiters(v, st.precision, st.thousands, st.decimal)
  }

  /** formatMoney(cents, format). */
  function FormatMoney(cents: Amount, format: string): (r: Result<string, FormatError>)
    ensures r.Failure? <==> FindPlaceholder(FormatOrDefault(format), 0).None?
    ensures r.Failure? ==> r.error == NoPlaceholder
    ensures r.Success? ==>
      var fs := FormatOrDefault(format);
      var p := FindPlaceholder(fs, 0).value;
      p.start <= p.end <= |fs| && |fs[..p.start]| <= |r.value| && |fs[p.end..]| <= |r.value| &&
      r.value[..p.start] == fs[..p.start] && r.value[|r.value| - |fs[p.end..]|..] == fs[p.end..]
  {
    var formatString := FormatOrDefault(format);
    match FindPlaceholder(formatString, 0)
    case None => Failure(NoPlaceholder)
    case Some(p) =>
      Success(formatString[..p.start] + PlaceholderValue(p.name, NumericValue(cents)) + formatString[p.end..])
  }

  /** formatMoney throws exactly when the template (or the default in its place) has no placeholder. */
  lemma {:induction false} FormatMoneyThrowsIffNoPlaceholder(cents: Amount, format: string)
    ensures FormatMoney(cents, format).Failure? <==>
      forall k :: 0 <= k <= |FormatOrDefault(format)| ==> PlaceholderAt(FormatOrDefault(format), k).None?
  {
    var fs := FormatOrDefault(format);
    if FindPlaceholder(fs, 0).None? {
      FindPlaceholderNoneMeansNone(fs, 0);
    }
  }

  /**
   * Only the first placeholder is replaced: the text before it and after it is
   * kept, and an unrecognised name is replaced by nothing.
   */
  lemma {:induction false} FormatMoneyReplacesFirstPlaceholder(cents: Amount, format: string)
    requires FindPlaceholder(FormatOrDefault(format), 0).Some?
    ensures FormatMoney(cents, format).Success?
    ensures var fs := FormatOrDefault(format);
      var p := FindPlaceholder(fs, 0).value;
      fs[..p.start] <= FormatMoney(cents, format).value
    ensures var fs := FormatOrDefault(format);
      var p := FindPlaceholder(fs, 0).value;
      StyleOf(p.name).None? ==> FormatMoney(cents, format).value == fs[..p.start] + fs[p.end..]
    ensures var fs := FormatOrDefault(format);
      var p := FindPlaceholder(fs, 0).value;
      FormatMoney(cents, format).value == fs[..p.start] + PlaceholderValue(p.name, NumericValue(cents)) + fs[p.end..]
  {
    var fs := FormatOrDefault(format);
    var p := FindPlaceholder(fs, 0).value;
    assert p.start <= p.end <= |fs|;
    var v := PlaceholderValue(p.name, NumericValue(cents));
    var out := fs[..p.start] + v + fs[p.end..];
    assert FormatMoney(cents, format) == Success(out);
    assert out[..p.start] == fs[..p.start];
    if StyleOf(p.name).None? {
      assert v == "";
      assert out == fs[..p.start] + fs[p.end..];
    }
  }

  /** An amount that is NaN or missing formats as 0 in every recognised style. */
  lemma {:induction false} NotANumberFormatsAsZero(name: string)
    requires StyleOf(name).Some?
    ensures PlaceholderValue(name, NumericValue(NotANumber)) == "0"
    ensures PlaceholderValue(name, NumericValue(Missing)) == "0"
  {
  }

  /** A string amount has its first '.' removed: "10.50" formats as 1050 cents would. */
  lemma {:induction false} TextDropsFirstDot(s: string, format: string)
    requires AllDigits(RemoveFirstDot(s))
    ensures FormatMoney(Text(s), format) == FormatMoney(Cents(DigitsValue(RemoveFirstDot(s))), format)
  {
  }

  /** A template that is just `{{name}}` is replaced wholesale by the name's value. */
  lemma {:induction false} FormatBarePlaceholder(cents: Amount, name: string)
    requires name != [] && forall k :: 0 <= k < |name| ==> IsWordChar(name[k])
    ensures FormatMoney(cents, "{{" + name + "}}") == Success(PlaceholderValue(name, NumericValue(cents)))
  {
    var fs := "{{" + name + "}}";
    var e := |name| + 4;
    BarePlaceholderMatches(name);
    assert FindPlaceholder(fs, 0) == Some(Placeholder(0, name, e));
    assert FormatOrDefault(fs) == fs;
    var v := PlaceholderValue(name, NumericValue(cents));
    assert FormatMoney(cents, fs) == Success(fs[..0] + v + fs[e..]);
    assert fs[..0] == [] && fs[e..] == [];
    assert fs[..0] + v + fs[e..] == v;
  }

  /** The whole of `{{name}}` is a placeholder capturing the name. */
  lemma {:induction false} BarePlaceholderMatches(name: string)
    requires name != [] && forall k :: 0 <= k < |name| ==> IsWordChar(name[k])
    ensures PlaceholderAt("{{" + name + "}}", 0) == Some(Placeholder(0, name, |name| + 4))
  {
    var fs := "{{" + name + "}}";
    var e := |name| + 2;
    assert fs[0] == '{' && fs[1] == '{' && fs[e] == '}' && fs[e + 1] == '}';
    assert fs[2..e] == name;
    assert SpacesEnd(fs, 2) == 2 by {
      assert fs[2] == name[0];
    }
    assert WordEnd(fs, 2) == e by {
      forall w | 2 <= w < e
        ensures IsWordChar(fs[w])
      {
        assert fs[w] == name[w - 2];
      }
      WordEndStops(fs, 2, e);
    }
    assert SpacesEnd(fs, e) == e;
  }

  /** The five recognised names and the styles they select. */
  lemma {:induction false} StyleTable()
    ensures StyleOf("amount") == Some(Style(TwoDecimals, ',', '.'))
    ensures StyleOf("amount_no_decimals") == Some(Style(NoDecimals, ',', '.'))
    ensures StyleOf("amount_with_comma_separator") == Some(Style(TwoDecimals, '.', ','))
    ensures StyleOf("amount_no_decimals_with_comma_separator") == Some(Style(NoDecimals, '.', ','))
    ensures StyleOf("amount_no_decimals_with_space_separator") == Some(Style(NoDecimals, ' ', '.'))
    ensures StyleOf("price") == None
    ensures forall name :: name !in StyleNames ==> StyleOf(name).None?
  {
  }

  // Worked examples; with StyleTable and FormatBarePlaceholder each is what
  // formatMoney returns for the bare template of the style.

  /** The numeral of 1234, digit by digit. */
  lemma {:induction false} NumeralOf1234()
    ensures NatToString(1234) == "1234"
  {
    assert NatToString(1) == "1";
    assert NatToString(12) == NatToString(1) + "2";
    assert NatToString(123) == NatToString(12) + "3";
    assert NatToString(1234) == NatToString(123) + "4";
  }

  lemma {:induction false} ExamplePlain()
    ensures FormatWithDelimiters(Some(123456), TwoDecimals, ',', '.') == "1,234.56"
  {
    var n := 123456;
    assert n / 100 == 1234 && n % 100 == 56;
    NumeralOf1234();
    InsertSeparatorsGroupsByThree("1234", ',');
    var whole := InsertSeparators(NatToString(1234), ',');
    assert whole == "1,234" by {
      assert GroupByThree("1234", ',') == "1" + "," + "234";
    }
    assert TwoDigits(56) == "56";
    assert FormatWithDelimiters(Some(n), TwoDecimals, ',', '.') == whole + "." + "56";
  }

  lemma {:induction false} ExampleText()
    ensures NumericValue(Text("10.50")) == Some(1050)
  {
    assert RemoveFirstDot("10.50") == "1050";
    assert NatToString(1050) == "1050";
    NatToStringRoundTrip(1050);
  }

  lemma {:induction false} ExampleNoDecimals()
    ensures FormatWithDelimiters(Some(100), NoDecimals, ',', '.') == "1"
    ensures FormatWithDelimiters(Some(150), NoDecimals, ',', '.') == "2"
    ensures FormatWithDelimiters(Some(149), NoDecimals, ',', '.') == "1"
  {
    assert NatToString(1) == "1";
    assert NatToString(2) == "2";
  }

  lemma {:induction false} ExampleCommaSeparator()
    ensures FormatWithDelimiters(Some(123456), TwoDecimals, '.', ',') == "1.234,56"
  {
    var n := 123456;
    assert n / 100 == 1234 && n % 100 == 56;
    NumeralOf1234();
    InsertSeparatorsGroupsByThree("1234", '.');
    var whole := InsertSeparators(NatToString(1234), '.');
    assert whole == "1.234" by {
      assert GroupByThree("1234", '.') == "1" + "." + "234";
    }
    assert TwoDigits(56) == "56";
    assert FormatWithDelimiters(Some(n), TwoDecimals, '.', ',') == whole + "," + "56";
  }

  lemma {:induction false} ExampleCommaNoDecimals()
    ensures FormatWithDelimiters(Some(1000000), NoDecimals, '.', ',') == "10.000"
  {
    assert NatToString(10) == NatToString(1) + "0";
    assert NatToString(100) == NatToString(10) + "0";
    assert NatToString(1000) == NatToString(100) + "0";
    assert NatToString(10000) == NatToString(1000) + "0";
    assert NatToString(10000) == "10000";
    InsertSeparatorsGroupsByThree("10000", '.');
    assert "10000"[..2] == "10" && "10000"[2..] == "000";
    assert GroupByThree("10000", '.') == "10" + "." + "000";
    assert (1000000 + 50) / 100 == 10000;
    assert FormatWithDelimiters(Some(1000000), NoDecimals, '.', ',') == InsertSeparators("10000", '.');
  }

  lemma {:induction false} ExampleSpaceSeparator()
    ensures FormatWithDelimiters(Some(123450), NoDecimals, ' ', '.') == "1 235"
  {
    var n := 123450;
    assert (n + 50) / 100 == 1235;
    assert NatToString(12) == NatToString(1) + "2";
    assert NatToString(123) == NatToString(12) + "3";
    assert NatToString(1235) == NatToString(123) + "5";
    assert NatToString(1235) == "1235";
    InsertSeparatorsGroupsByThree("1235", ' ');
    assert GroupByThree("1235", ' ') == "1" + " " + "235";
    assert FormatWithDelimiters(Some(n), NoDecimals, ' ', '.') == InsertSeparators("1235", ' ');
  }

  /** Worked example: the default format "$" has no placeholder, and formatting throws. */
  lemma {:induction false} ExampleDefaultFormatThrows(cents: Amount)
    ensures FormatMoney(cents, "") == Failure(NoPlaceholder)
  {
    assert PlaceholderAt("$", 0).None?;
    assert PlaceholderAt("$", 1).None?;
  }
}

=== FILE: fading_images.dfy ===
/**
 * The image and title counters of theme.FadingImages (assets/theme.js, lines
 * 4090-4099 and 4124-4161): each step moves to the next block and wraps from
 * the last block back to the first.
 */
module FadingImages {

  /** The 1-based index after i among n blocks: `i++`, back to 1 once past n. */
  function Successor(i: int, n: nat): (r: int)
    ensures 1 <= i <= n ==> 1 <= r <= n
    ensures i < n ==> r == i + 1
    ensures i >= n ==> r == 1
  {
    if i + 1 > n then 1 else i + 1
  }

  /** The index after k steps from i. */
  function Advanced(i: int, n: nat, k: nat): int
    decreases k
  {
    if k == 0 then i else Successor(Advanced(i, n, k - 1), n)
  }

  /** a steps and then b more are a + b steps. */
  lemma {:induction false} AdvancedAdds(i: int, n: nat, a: nat, b: nat)
    ensures Advanced(Advanced(i, n, a), n, b) == Advanced(i, n, a + b)
    decreases b
  {
    if b > 0 {
      AdvancedAdds(i, n, a, b - 1);
    }
  }

  /** Before the last block is passed, k steps move k blocks on. */
  lemma {:induction false} AdvancedWithinRange(i: int, n: nat, k: nat)
    requires 1 <= i && i + k <= n
    ensures Advanced(i, n, k) == i + k
    decreases k
  {
    if k > 0 {
      AdvancedWithinRange(i, n, k - 1);
    }
  }

  /** n steps bring the counter back to where it started: it visits every block once per cycle. */
  lemma {:induction false} FullCycleReturns(i: int, n: nat)
    requires 1 <= i <= n
    ensures Advanced(i, n, n) == i
  {
    AdvancedWithinRange(i, n, n - i);
    assert Advanced(i, n, n - i + 1) == 1;
    AdvancedWithinRange(1, n, i - 1);
    AdvancedAdds(i, n, n - i + 1, i - 1);
  }

  class FadingImages {
    /** The number of blocks, the container's data-count. */
    const blockCount: nat
    var activeImage: int
    var activeTitle: int
    var removedCompensation: bool

    /** Both counters stay on a block; with no blocks they stay at 1. */
    predicate Valid()
      reads this
    {
      && 1 <= activeImage && (activeImage <= blockCount || activeImage == 1)
      && 1 <= activeTitle && (activeTitle <= blockCount || activeTitle == 1)
    }

    constructor (blockCount: nat)
      ensures Valid()
      ensures this.blockCount == blockCount && activeImage == 1 && activeTitle == 1 && !removedCompensation
    {
      this.blockCount := blockCount;
      activeImage := 1;
      activeTitle := 1;
      removedCompensation := false;
    }

    /** nextImage: the first call drops the compensation class; then the next image becomes active. */
    method NextImage()
      requires Valid()
      modifies this
      ensures Valid()
      ensures activeImage == Successor(old(activeImage), blockCount)
      ensures removedCompensation && activeTitle == old(activeTitle)
    {
      if !removedCompensation {
        removedCompensation := true;
      }
      activeImage := activeImage + 1;
      if activeImage > blockCount {
        activeImage := 1;
      }
    }

    /** nextTitle: the next title becomes active. */
    method NextTitle()
      requires Valid()
      modifies this
      ensures Valid()
      ensures activeTitle == Successor(old(activeTitle), blockCount)
      ensures activeImage == old(activeImage) && removedCompensation == old(removedCompensation)
    {
      activeTitle := activeTitle + 1;
      if activeTitle > blockCount {
        activeTitle := 1;
      }
    }
  }
}

=== FILE: images.dfy ===
/**
 * theme.Images.getSizedImageUrl and removeProtocol (assets/theme.js, lines
 * 467-497): rewriting an image URL to ask the CDN for a given size.
 */
module Images {
  import opened Wrappers
  import opened Numerals

  // ---------------------------------------------------------------------------
  // removeProtocol

  /** The length of the match of /http(s)?:/ at i: 6 for "https:", 5 for "http:", 0 for none. */
  function ProtocolLengthAt(s: string, i: nat): (n: nat)
    requires i <= |s|
    ensures n == 0 || n == 5 || n == 6
    ensures i + n <= |s|
    ensures n == 6 ==> s[i..i + 6] == "https:"
    ensures n == 5 ==> s[i..i + 5] == "http:"
  {
    if i + 6 <= |s| && s[i..i + 6] == "https:" then 6
    else if i + 5 <= |s| && s[i..i + 5] == "http:" then 5
    else 0
  }

  /** The leftmost index at or after i where the protocol pattern matches. */
  function FindProtocol(s: string, i: nat): (r: Option<nat>)
    requires i <= |s|
    ensures r.Some? ==> i <= r.value <= |s| && ProtocolLengthAt(s, r.value) > 0
    ensures r.Some? ==> forall k :: i <= k < r.value ==> ProtocolLengthAt(s, k) == 0
    ensures r.None? ==> forall k :: i <= k <= |s| ==> ProtocolLengthAt(s, k) == 0
    decreases |s| - i
  {
    if ProtocolLengthAt(s, i) > 0 then Some(i)
    else if i == |s| then None
    else FindProtocol(s, i + 1)
  }

  /** removeProtocol: `path.replace(/http(s)?:/, '')` drops the first "http:" or "https:". */
  function RemoveProtocol(path: string): (r: string)
    ensures FindProtocol(path, 0).None? ==> r == path
    ensures FindProtocol(path, 0).Some? ==> |r| == |path| - ProtocolLengthAt(path, FindProtocol(path, 0).value)
    ensures FindProtocol(path, 0).Some? ==>
      var k := FindProtocol(path, 0).value;
      r[..k] == path[..k] && r[k..] == path[k + ProtocolLengthAt(path, k)..]
  {
    match FindProtocol(path, 0)
    case None => path
    case Some(k) => path[..k] + path[k + ProtocolLengthAt(path, k)..]
  }

  /** Without an 'h' there is no protocol to remove. */
  lemma {:induction false} NoProtocolWithoutH(s: string)
    requires 'h' !in s
    ensures RemoveProtocol(s) == s
  {
    forall k | 0 <= k <= |s|
      ensures ProtocolLengthAt(s, k) == 0
    {
      if k + 5 <= |s| {
        assert s[k..k + 5][0] == s[k];
      }
      if k + 6 <= |s| {
        assert s[k..k + 6][0] == s[k];
      }
    }
  }

  /** An absolute http or https URL becomes protocol-relative. */
  lemma {:induction false} RemoveProtocolOfAbsoluteUrl(scheme: string, rest: string)
    requires scheme == "http:" || scheme == "https:"
    ensures RemoveProtocol(scheme + rest) == rest
  {
    var s := scheme + rest;
    assert s[..|scheme|] == scheme;
    if scheme == "http:" {
      assert s[4] == ':';
      assert ProtocolLengthAt(s, 0) == 5;
    } else {
      assert s[0..6] == "https:";
    }
    assert s[|scheme|..] == rest;
  }

  // ---------------------------------------------------------------------------
  // The image suffix /\.(jpg|jpeg|gif|png|bmp|bitmap|tiff|tif)(\?v=\d+)?$/i

  /** The extensions the pattern lists. */
  const ImageExtensions: set<string> := {"jpg", "jpeg", "gif", "png", "bmp", "bitmap", "tiff", "tif"}

  /** ASCII lower case; the `i` flag folds no other character onto an ASCII letter. */
  function LowerAscii(s: string): (r: string)
    ensures |r| == |s|
  {
    seq(|s|, k requires 0 <= k < |s| => LowerChar(s[k]))
  }

  /** One character in ASCII lower case. */
  function LowerChar(c: char): char {
    if 'A' <= c <= 'Z' then (c as int + 32) as char else c
  }

  /** Text without upper-case ASCII letters is its own lower case. */
  lemma {:induction false} LowerAsciiOfLower(s: string)
    requires forall k :: 0 <= k < |s| ==> !('A' <= s[k] <= 'Z')
    ensures LowerAscii(s) == s
  {
    if s != [] {
      LowerAsciiOfLower(s[1..]);
      assert s == [s[0]] + s[1..];
    }
  }

  /** The index of the first '?' at or after i, or the length of t. */
  function QueryStart(t: string, i: nat): (q: nat)
    requires i <= |t|
    ensures i <= q <= |t|
    ensures forall k :: i <= k < q ==> t[k] != '?'
    ensures q < |t| ==> t[q] == '?'
    decreases |t| - i
  {
    if i == |t| || t[i] == '?' then i else QueryStart(t, i + 1)
  }

  /** Nothing, or a cache-busting `?v=` (the `i` flag lets it be `?V=`) followed by one or more digits. */
  predicate IsVersionQuery(q: string) {
    q == "" || (|q| > 3 && q[0] == '?' && (q[1] == 'v' || q[1] == 'V') && q[2] == '=' && AllDigits(q[3..]))
  }

  /**
   * The whole match, when t is it: '.', an image extension in any case, an
   * optional version query, and the end of the string. An extension holds no
   * '?', so the extension runs up to the first '?'.
   */
  predicate IsImageSuffix(t: string) {
    |t| >= 1 && t[0] == '.' &&
    var q := QueryStart(t, 1);
    LowerAscii(t[1..q]) in ImageExtensions && IsVersionQuery(t[q..])
  }

  /** Where the pattern matches in src: the leftmost k at or after i with src[k..] a suffix. */
  function SuffixStart(src: string, i: nat): (r: Option<nat>)
    requires i <= |src|
    ensures r.Some? ==> i <= r.value <= |src| && IsImageSuffix(src[r.value..])
    decreases |src| - i
  {
    if IsImageSuffix(src[i..]) then Some(i)
    else if i == |src| then None
    else SuffixStart(src, i + 1)
  }

  /** The match found is the leftmost one, and none is found only when there is none. */
  lemma {:induction false} SuffixStartIsLeftmost(src: string, i: nat)
    requires i <= |src|
    ensures SuffixStart(src, i).Some? ==> forall k :: i <= k < SuffixStart(src, i).value ==> !IsImageSuffix(src[k..])
    ensures SuffixStart(src, i).None? ==> forall k :: i <= k <= |src| ==> !IsImageSuffix(src[k..])
    decreases |src| - i
  {
    var here := IsImageSuffix(src[i..]);
    if !here && i < |src| {
      var r := SuffixStart(src, i + 1);
      assert SuffixStart(src, i) == r;
      SuffixStartIsLeftmost(src, i + 1);
      forall k | i <= k <= |src| && (r.None? || k < r.value)
        ensures !IsImageSuffix(src[k..])
      {
        if k == i {
          assert !here;
        }
      }
    }
  }

  /** t occurs in s at index k. */
  predicate OccursAt(s: string, t: string, k: nat) {
    k + |t| <= |s| && s[k..k + |t|] == t
  }

  /** The first index at or after i where t occurs in s: what `split` cuts at. */
  function IndexOf(s: string, t: string, i: nat): (r: Option<nat>)
    requires i <= |s|
    ensures r.Some? ==> i <= r.value && OccursAt(s, t, r.value)
    ensures r.Some? ==> forall k :: i <= k < r.value ==> !OccursAt(s, t, k)
    ensures r.None? ==> forall k :: i <= k ==> !OccursAt(s, t, k)
    decreases |s| - i
  {
    if i + |t| > |s| then None
    else if OccursAt(s, t, i) then Some(i)
    else
      assert |t| > 0;
      IndexOf(s, t, i + 1)
  }

  // ---------------------------------------------------------------------------
  // getSizedImageUrl

  /**
   * getSizedImageUrl as written: `src.split(match[0])[0]` keeps the text before
   * the FIRST occurrence of the matched suffix, which is not always the one at
   * the end. None stands for a null result.
   */
  function SizedImageUrlAsWritten(src: string, size: Option<string>): (r: Option<string>)
    ensures size.None? ==> r == Some(src)
    ensures r.None? <==> size.Some? && size.value != "master" && SuffixStart(src, 0).None?
  {
    if size.None? then Some(src)
    else if size.value == "master" then Some(RemoveProtocol(src))
    else match SuffixStart(src, 0)
      case None => None
      case Some(k) =>
        var suffix := src[k..];
        assert OccursAt(src, suffix, k);
        var first := IndexOf(src, suffix, 0).value;
        Some(RemoveProtocol(src[..first] + "_" + size.value + suffix))
  }

  /**
   * getSizedImageUrl as intended: `_<size>` goes right before the matched
   * suffix at the end of the URL, and the protocol is dropped.
   */
  function GetSizedImageUrl(src: string, size: Option<string>): (r: Option<string>)
    ensures size.None? ==> r == Some(src)
    ensures size == Some("master") ==> r == Some(RemoveProtocol(src))
    ensures r.None? <==> size.Some? && size.value != "master" && SuffixStart(src, 0).None?
  {
    if size.None? then Some(src)
    else if size.value == "master" then Some(RemoveProtocol(src))
    else match SuffixStart(src, 0)
      case None => None
      case Some(k) => Some(RemoveProtocol(src[..k] + "_" + size.value + src[k..]))
  }

  /**
   * The sized URL keeps the whole original around the inserted `_<size>`: the
   * text before the suffix, then `_<size>`, then the suffix.
   */
  lemma {:induction false} SizedUrlKeepsOriginal(src: string, size: string)
    requires size != "master" && SuffixStart(src, 0).Some?
    ensures var k := SuffixStart(src, 0).value;
      var u := src[..k] + "_" + size + src[k..];
      && GetSizedImageUrl(src, Some(size)) == Some(RemoveProtocol(u))
      && u[..k] == src[..k] && u[k + 1 + |size|..] == src[k..] && IsImageSuffix(u[k + 1 + |size|..])
      && ('.' !in size ==> SuffixStart(u, 0) == Some(k + 1 + |size|))
  {
    var k := SuffixStart(src, 0).value;
    var u := src[..k] + "_" + size + src[k..];
    InsertedSlices(src, "_", size, k);
    assert GetSizedImageUrl(src, Some(size)) == Some(RemoveProtocol(u));
    assert IsImageSuffix(u[k + 1 + |size|..]);
    if '.' !in size {
      SizedUrlMatchStays(src, size, k);
    }
  }

  /** Resizing moves the match along by the inserted text and nowhere else. */
  lemma {:induction false} SizedUrlMatchStays(src: string, size: string, k: nat)
    requires k <= |src| && IsImageSuffix(src[k..]) && '.' !in size
    ensures SuffixStart(src[..k] + "_" + size + src[k..], 0) == Some(k + 1 + |size|)
  {
    var u := src[..k] + "_" + size + src[k..];
    var m := k + 1 + |size|;
    InsertedSlices(src, "_", size, k);
    forall j | 0 <= j < m
      ensures !IsImageSuffix(u[j..])
    {
      NoSuffixBeforeSize(src, size, k, j);
    }
    FirstSuffixAt(u, m);
  }

  /** Text inserted at k leaves what was before k in front and what was after k at the end. */
  lemma InsertedSlices<T>(a: seq<T>, x: seq<T>, y: seq<T>, k: nat)
    requires k <= |a|
    ensures (a[..k] + x + y + a[k..])[..k] == a[..k]
    ensures (a[..k] + x + y + a[k..])[k + |x| + |y|..] == a[k..]
  {
  }

  /** A suffix with none before it is the one SuffixStart reports. */
  lemma {:induction false} FirstSuffixAt(u: string, m: nat)
    requires m <= |u| && IsImageSuffix(u[m..])
    requires forall j :: 0 <= j < m ==> !IsImageSuffix(u[j..])
    ensures SuffixStart(u, 0) == Some(m)
  {
    SuffixStartIsLeftmost(u, 0);
  }

  /** Before the suffix it keeps, the sized URL has no match: the '_' breaks every candidate. */
  lemma {:induction false} NoSuffixBeforeSize(src: string, size: string, k: nat, j: nat)
    requires k <= |src| && '.' !in size && j < k + 1 + |size|
    ensures !IsImageSuffix((src[..k] + "_" + size + src[k..])[j..])
  {
    var u := src[..k] + "_" + size + src[k..];
    var t := u[j..];
    if j < k {
      assert t[k - j] == '_';
      NoSuffixThroughUnderscore(t, k - j);
    } else if j == k {
      assert t[0] == '_';
    } else {
      assert t[0] == size[j - k - 1];
    }
  }

  /** No image suffix holds a '_': neither an extension nor a version query has one. */
  lemma {:induction false} NoSuffixThroughUnderscore(t: string, p: nat)
    requires 1 <= p < |t| && t[p] == '_'
    ensures !IsImageSuffix(t)
  {
    if |t| >= 1 && t[0] == '.' {
      var q := QueryStart(t, 1);
      if p < q {
        var e := LowerAscii(t[1..q]);
        assert e[p - 1] == '_';
        assert e !in ImageExtensions;
      } else {
        var v := t[q..];
        assert q < p && v[p - q] == '_';
        assert !IsDigit('_');
        assert !IsVersionQuery(v);
      }
    }
  }

  /** The two agree whenever the suffix occurs nowhere in the URL before its end. */
  lemma {:induction false} AsWrittenAgreesOnSingleSuffix(src: string, size: Option<string>)
    requires SuffixStart(src, 0).Some? ==>
      var k := SuffixStart(src, 0).value;
      IndexOf(src, src[k..], 0) == Some(k)
    ensures SizedImageUrlAsWritten(src, size) == GetSizedImageUrl(src, size)
  {
  }

  /** In "a.jpg.jpg" the pattern matches the final ".jpg" only. */
  lemma {:induction false} SuffixOfDoubledExtension(src: string)
    requires src == "a.jpg.jpg"
    ensures SuffixStart(src, 0) == Some(5)
  {
    assert !IsImageSuffix(src[0..]);
    var t1 := src[1..];
    assert t1 == ".jpg.jpg";
    assert QueryStart(t1, 1) == 8;
    assert t1[1..8] == "jpg.jpg";
    LowerAsciiOfLower(t1[1..8]);
    assert !IsImageSuffix(t1);
    assert !IsImageSuffix(src[2..]);
    assert !IsImageSuffix(src[3..]);
    assert !IsImageSuffix(src[4..]);
    var t5 := src[5..];
    assert t5 == ".jpg";
    assert QueryStart(t5, 1) == 4;
    assert t5[1..4] == "jpg";
    LowerAsciiOfLower(t5[1..4]);
    assert IsVersionQuery(t5[4..]);
    assert IsImageSuffix(t5);
    assert SuffixStart(src, 4) == Some(5);
    assert SuffixStart(src, 3) == Some(5);
    assert SuffixStart(src, 2) == Some(5);
    assert SuffixStart(src, 1) == Some(5);
  }

  /**
   * "a.jpg.jpg" at size "100x": the suffix ".jpg" occurs first at index 1, so the
   * code as written cuts there and loses ".jpg" from the file name.
   */
  lemma {:induction false} SuffixCutAtFirstOccurrence(src: string)
    requires src == "a.jpg.jpg"
    ensures SizedImageUrlAsWritten(src, Some("100x")) == Some("a_100x.jpg")
    ensures GetSizedImageUrl(src, Some("100x")) == Some("a.jpg_100x.jpg")
  {
    SuffixOfDoubledExtension(src);
    var m := src[5..];
    assert m == ".jpg";
    assert IndexOf(src, m, 0) == Some(1) by {
      assert !OccursAt(src, m, 0) by {
        assert src[0..4][0] == 'a';
      }
      assert OccursAt(src, m, 1);
    }
    assert src[..1] + "_" + "100x" + m == "a_100x.jpg";
    assert src[..5] + "_" + "100x" + src[5..] == "a.jpg_100x.jpg";
    NoProtocolWithoutH("a_100x.jpg");
    NoProtocolWithoutH("a.jpg_100x.jpg");
  }

  /**
   * The `i` flag covers the version query too: "x.jpg?V=1" at size "100x"
   * becomes "x_100x.jpg?V=1".
   */
  lemma {:induction false} VersionQueryIgnoresCase(src: string)
    requires src == "x.jpg?V=1"
    ensures GetSizedImageUrl(src, Some("100x")) == Some("x_100x.jpg?V=1")
  {
    assert !IsImageSuffix(src[0..]);
    var t := src[1..];
    assert t == ".jpg?V=1";
    assert t[1] != '?' && t[2] != '?' && t[3] != '?' && t[4] == '?';
    assert QueryStart(t, 4) == 4;
    assert QueryStart(t, 3) == 4;
    assert QueryStart(t, 2) == 4;
    assert QueryStart(t, 1) == 4;
    assert t[1..4] == "jpg";
    LowerAsciiOfLower(t[1..4]);
    var q := t[4..];
    assert q == "?V=1";
    assert IsVersionQuery(q);
    assert IsImageSuffix(t);
    assert SuffixStart(src, 0) == Some(1);
    assert src[..1] + "_" + "100x" + src[1..] == "x_100x.jpg?V=1";
    NoProtocolWithoutH("x_100x.jpg?V=1");
  }
}

=== FILE: numerals.dfy ===
/**
 * Decimal text for natural numbers and integers: what JavaScript's String(n)
 * prints for a safe integer, and the value a string of digits denotes.
 */
module Numerals {

  predicate IsDigit(c: char) {
    '0' <= c <= '9'
  }

  predicate AllDigits(s: string) {
    forall i :: 0 <= i < |s| ==> IsDigit(s[i])
  }

  function DigitChar(d: nat): (c: char)
    requires d < 10
    ensures IsDigit(c)
  {
    (d + '0' as int) as char
  }

  function DigitValue(c: char): (d: nat)
    requires IsDigit(c)
    ensures d < 10 && DigitChar(d) == c
  {
    c as int - '0' as int
  }

  /** The shortest decimal numeral of n (no leading zeros). */
  function NatToString(n: nat): (s: string)
    ensures |s| >= 1 && AllDigits(s)
    ensures |s| > 1 ==> s[0] != '0'
  {
    if n < 10 then [DigitChar(n)] else NatToString(n / 10) + [DigitChar(n % 10)]
  }

  /** What String(i) prints for an integer. */
  function IntToString(i: int): (s: string)
    ensures |s| >= 1
    ensures i < 0 <==> s[0] == '-'
    ensures i >= 0 ==> AllDigits(s)
  {
    if i < 0 then "-" + NatToString(-i) else NatToString(i)
  }

  /** The value of a string of decimal digits; the empty string reads as 0, as Number("") does. */
  function DigitsValue(s: string): nat
    requires AllDigits(s)
  {
    if s == [] then 0 else DigitsValue(s[..|s| - 1]) * 10 + DigitValue(s[|s| - 1])
  }

  /** Reading back the numeral of n gives n. */
  lemma {:induction false} NatToStringRoundTrip(n: nat)
    ensures DigitsValue(NatToString(n)) == n
  {
    if n >= 10 {
      var s := NatToString(n);
      assert s[..|s| - 1] == NatToString(n / 10);
      NatToStringRoundTrip(n / 10);
    }
  }

  /** Appending one digit multiplies the value by ten and adds the digit. */
  lemma {:induction false} DigitsValueAppend(s: string, c: char)
    requires AllDigits(s) && IsDigit(c)
    ensures AllDigits(s + [c])
    ensures DigitsValue(s + [c]) == DigitsValue(s) * 10 + DigitValue(c)
  {
    assert (s + [c])[..|s|] == s;
  }
}

=== FILE: qty_selector.dfy ===
/**
 * theme.QtySelector (assets/theme.js, lines 1057-1167): the plus and minus
 * buttons around a quantity input, and the reading of what the shopper typed.
 */
module QtySelector {
  import opened Wrappers
  import opened Numerals

  // ---------------------------------------------------------------------------
  // validateQty

  /** The end of the run of digits in s that starts at i. */
  function DigitRunEnd(s: string, i: nat): (j: nat)
    requires i <= |s|
    ensures i <= j <= |s| && AllDigits(s[i..j])
    ensures j < |s| ==> !IsDigit(s[j])
    decreases |s| - i
  {
    if i < |s| && IsDigit(s[i]) then
      var j := DigitRunEnd(s, i + 1);
      assert s[i..j] == [s[i]] + s[i + 1..j];
      j
    else i
  }

  /** A digit run reaching the end of the text stops there. */
  lemma {:induction false} DigitRunToEnd(s: string, i: nat)
    requires i <= |s| && AllDigits(s[i..])
    ensures DigitRunEnd(s, i) == |s|
    decreases |s| - i
  {
    if i < |s| {
      assert IsDigit(s[i..][0]);
      assert s[i + 1..] == s[i..][1..];
      DigitRunToEnd(s, i + 1);
    }
  }

  /** The optional sign in front of a typed number. */
  datatype Sign = NoSign | Plus | Minus

  function SignText(sign: Sign): string {
    match sign
    case NoSign => ""
    case Plus => "+"
    case Minus => "-"
  }

  /** A number as the shopper may type it: a sign, whole digits, and an optional '.' and fraction. */
  datatype Decimal = Decimal(sign: Sign, whole: string, point: bool, fraction: string)

  /** At least one whole digit, a fraction of digits, and no fraction without a point. */
  predicate WellFormed(d: Decimal) {
    |d.whole| >= 1 && AllDigits(d.whole) && AllDigits(d.fraction) && (!d.point ==> d.fraction == [])
  }

  /** The text that spells a decimal. */
  function Spell(d: Decimal): string {
    SignText(d.sign) + d.whole + (if d.point then "." + d.fraction else "")
  }

  /** The sign the text starts with, if any. */
  function SignOf(text: string): (sign: Sign)
    ensures |SignText(sign)| <= |text| && text[..|SignText(sign)|] == SignText(sign)
  {
    if |text| > 0 && text[0] == '+' then Plus else if |text| > 0 && text[0] == '-' then Minus else NoSign
  }

  /**
   * The text read as `[+-]?\d+(\.\d*)?`: the form on which JavaScript's parseInt,
   * parseFloat and Number all read the same number. A parsed result is well
   * formed and spells the text back.
   */
  function ParseDecimal(text: string): (r: Option<Decimal>)
    ensures r.Some? ==> WellFormed(r.value) && Spell(r.value) == text
  {
    var sign := SignOf(text);
    var signLen := |SignText(sign)|;
    var j := DigitRunEnd(text, signLen);
    if j == signLen then None
    else if j == |text| then
      assert text == text[..signLen] + text[signLen..j];
      Some(Decimal(sign, text[signLen..j], false, ""))
    else if text[j] == '.' && AllDigits(text[j + 1..]) then
      assert text == text[..signLen] + text[signLen..j] + ("." + text[j + 1..]);
      Some(Decimal(sign, text[signLen..j], true, text[j + 1..]))
    else None
  }

  /** Every well-formed decimal is read back from its spelling, so exactly the spellings parse. */
  lemma {:induction false} ParseSpelled(d: Decimal)
    requires WellFormed(d)
    ensures ParseDecimal(Spell(d)) == Some(d)
  {
    var s := Spell(d);
    var signLen := |SignText(d.sign)|;
    var e := signLen + |d.whole|;
    SignOfSpelled(d);
    WholeRunOfSpelled(d);
    assert s[signLen..e] == d.whole;
    if d.point {
      assert s[e] == '.' && s[e + 1..] == d.fraction;
    }
  }

  lemma {:induction false} SignOfSpelled(d: Decimal)
    requires WellFormed(d)
    ensures SignOf(Spell(d)) == d.sign
  {
    var s := Spell(d);
    if d.sign == NoSign {
      assert s[0] == d.whole[0];
      assert IsDigit(d.whole[0]);
    }
  }

  /** The digit run after the sign is exactly the whole part. */
  lemma {:induction false} WholeRunOfSpelled(d: Decimal)
    requires WellFormed(d)
    ensures DigitRunEnd(Spell(d), |SignText(d.sign)|) == |SignText(d.sign)| + |d.whole|
  {
    var s := Spell(d);
    var signLen := |SignText(d.sign)|;
    var e := signLen + |d.whole|;
    assert s[signLen..e] == d.whole;
    if d.point {
      assert s[e] == '.';
      DigitRunEndStops(s, signLen, e);
    } else {
      assert s[signLen..] == d.whole;
      DigitRunToEnd(s, signLen);
    }
  }

  /** Every digit is a zero. */
  predicate AllZeros(s: string) {
    forall k :: 0 <= k < |s| ==> s[k] == '0'
  }

  /**
   * validateQty: `parseFloat(n) == parseInt(n) && !isNaN(n)` holds exactly when
   * the text is a number whose fraction is all zeros; then the result is its
   * whole part, and otherwise it is 1.
   */
  function ValidateQty(text: string): (q: int)
    ensures ParseDecimal(text).None? ==> q == 1
    ensures ParseDecimal(text).Some? && !AllZeros(ParseDecimal(text).value.fraction) ==> q == 1
  {
    match ParseDecimal(text)
    case None => 1
    case Some(d) =>
      if !AllZeros(d.fraction) then 1
      else if d.sign == Minus then -(DigitsValue(d.whole) as int)
      else DigitsValue(d.whole)
  }

  /** An integer's own numeral validates to that integer. */
  lemma {:induction false} ValidateQtyOfInteger(n: int)
    ensures ValidateQty(IntToString(n)) == n
  {
    var d := Decimal(if n < 0 then Minus else NoSign, NatToString(if n < 0 then -n else n), false, "");
    assert Spell(d) == IntToString(n);
    ParseSpelled(d);
    NatToStringRoundTrip(if n < 0 then -n else n);
  }

  /** A fraction of zeros is dropped: "12.00" validates to 12. */
  lemma {:induction false} ValidateQtyZeroFraction(whole: string, zeros: string)
    requires |whole| >= 1 && AllDigits(whole) && AllDigits(zeros) && AllZeros(zeros)
    ensures ValidateQty(whole + "." + zeros) == DigitsValue(whole)
  {
    var d := Decimal(NoSign, whole, true, zeros);
    assert Spell(d) == whole + "." + zeros;
    ParseSpelled(d);
  }

  /** A non-zero fraction makes the text invalid: "2.5" validates to 1. */
  lemma {:induction false} ValidateQtyNonZeroFraction(whole: string, fraction: string)
    requires |whole| >= 1 && AllDigits(whole) && AllDigits(fraction) && !AllZeros(fraction)
    ensures ValidateQty(whole + "." + fraction) == 1
  {
    var d := Decimal(NoSign, whole, true, fraction);
    assert Spell(d) == whole + "." + fraction;
    ParseSpelled(d);
  }

  /** The run from i stops at the first non-digit e when everything before it is a digit. */
  lemma {:induction false} DigitRunEndStops(s: string, i: nat, e: nat)
    requires i <= e < |s| && AllDigits(s[i..e]) && !IsDigit(s[e])
    ensures DigitRunEnd(s, i) == e
    decreases e - i
  {
    if i < e {
      assert IsDigit(s[i..e][0]);
      assert s[i + 1..e] == s[i..e][1..];
      DigitRunEndStops(s, i + 1, e);
    }
  }

  // ---------------------------------------------------------------------------
  // The selector object

  /** The event triggered on the body: `'qty' + namespace` with the product key and the quantity. */
  datatype QtyEvent = QtyEvent(key: string, qty: int)

  class QtySelector {
    /** The `min` attribute of the original input, 1 when it has none. */
    const minValue: int
    /** The product key passed with every event. */
    const key: string
    /** The text of the quantity input. */
    var inputText: string
    var events: seq<QtyEvent>

    constructor (minValue: int, key: string, inputText: string)
      ensures this.minValue == minValue && this.key == key && this.inputText == inputText && events == []
    {
      this.minValue := minValue;
      this.key := key;
      this.inputText := inputText;
      events := [];
    }

    /** changeQty: show the quantity in the input and announce it. */
    method ChangeQty(qty: int)
      modifies this
      ensures inputText == IntToString(qty) && ValidateQty(inputText) == qty
      ensures events == old(events) + [QtyEvent(key, qty)]
    {
      inputText := IntToString(qty);
      events := events + [QtyEvent(key, qty)];
      ValidateQtyOfInteger(qty);
    }

    /** addQty: one more. */
    method AddQty(number: int)
      modifies this
      ensures inputText == IntToString(number + 1) && ValidateQty(inputText) == number + 1
      ensures events == old(events) + [QtyEvent(key, number + 1)]
    {
      ChangeQty(number + 1);
    }

    /** subtractQty: one fewer, but never below the minimum. */
    method SubtractQty(number: int)
      modifies this
      ensures inputText == IntToString(Subtracted(number, minValue))
      ensures ValidateQty(inputText) == Subtracted(number, minValue)
      ensures events == old(events) + [QtyEvent(key, ValidateQty(inputText))]
    {
      var qty := number - 1;
      if qty <= minValue {
        qty := minValue;
      }
      ChangeQty(qty);
    }

    /** The plus button: validate what the input shows, then add one. */
    method OnPlusClick()
      modifies this
      ensures inputText == IntToString(ValidateQty(old(inputText)) + 1)
      ensures ValidateQty(inputText) == ValidateQty(old(inputText)) + 1
      ensures events == old(events) + [QtyEvent(key, ValidateQty(inputText))]
    {
      var qty := ValidateQty(inputText);
      AddQty(qty);
    }

    /** The minus button: validate what the input shows, then subtract one. */
    method OnMinusClick()
      modifies this
      ensures inputText == IntToString(Subtracted(ValidateQty(old(inputText)), minValue))
      ensures ValidateQty(inputText) == Subtracted(ValidateQty(old(inputText)), minValue)
      ensures events == old(events) + [QtyEvent(key, ValidateQty(inputText))]
    {
      var qty := ValidateQty(inputText);
      SubtractQty(qty);
    }

    /** Typing in the input: announce the validated quantity and show it. */
    method OnInputChange()
      modifies this
      ensures inputText == IntToString(ValidateQty(old(inputText)))
      ensures ValidateQty(inputText) == ValidateQty(old(inputText))
      ensures events == old(events) + [QtyEvent(key, ValidateQty(inputText))]
    {
      var qty := ValidateQty(inputText);
      ChangeQty(qty);
    }
  }

  /** What subtractQty leaves: one fewer, clamped at the minimum. */
  function Subtracted(number: int, minValue: int): (q: int)
    ensures q >= minValue
    ensures q == number - 1 || q == minValue
    ensures number > minValue ==> q == number - 1
  {
    if number - 1 <= minValue then minValue else number - 1
  }

  /** However many times the minus button is pressed, the quantity does not fall below the minimum. */
  lemma {:induction false} RepeatedSubtractStaysAtMinimum(number: int, minValue: int, times: nat)
    requires number >= minValue
    ensures SubtractedTimes(number, minValue, times) >= minValue
    ensures SubtractedTimes(number, minValue, times) == if number - times >= minValue then number - times else minValue
    decreases times
  {
    if times > 0 {
      RepeatedSubtractStaysAtMinimum(number, minValue, times - 1);
    }
  }

  /** The quantity after pressing minus `times` times. */
  function SubtractedTimes(number: int, minValue: int, times: nat): int
    decreases times
  {
    if times == 0 then number else Subtracted(SubtractedTimes(number, minValue, times - 1), minValue)
  }
}

=== FILE: sections.dfy ===
/**
 * theme.Sections: the registry of section instances (assets/theme.js, lines 203-322).
 */
module Sections {
  import opened Wrappers
  import opened SlateUtils

  /** A `[data-section-id]` element of the page, with its two data attributes. */
  datatype Container = Container(ref: nat, sectionId: string, sectionType: string)

  /** A section constructor, seen through what `new constructor(container)` yields. */
  type SectionConstructor = Container -> Record

  /** createInstance's object: the constructed one, extended with id, type and container. */
  function NewInstance(ctor: SectionConstructor, c: Container): (r: Record)
    ensures Get(r, "id") == Str(c.sectionId)
    ensures Get(r, "type") == Str(c.sectionType)
    ensures Get(r, "container") == Object(c.ref)
  {
    ctor(c)["id" := Str(c.sectionId)]["type" := Str(c.sectionType)]["container" := Object(c.ref)]
  }

  /** The containers `$('[data-section-type=' + type + ']')` selects, in document order. */
  function OfType(page: seq<Container>, sectionType: string): seq<Container> {
    if page == [] then []
    else (if page[0].sectionType == sectionType then [page[0]] else []) + OfType(page[1..], sectionType)
  }

  /** The selection holds every container of the type, each as often as on the page, and no other. */
  lemma {:induction false} OfTypeSelects(page: seq<Container>, sectionType: string, c: Container)
    ensures c.sectionType == sectionType ==> multiset(OfType(page, sectionType))[c] == multiset(page)[c]
    ensures c.sectionType != sectionType ==> c !in OfType(page, sectionType)
  {
    if page != [] {
      assert page == [page[0]] + page[1..];
      OfTypeSelects(page[1..], sectionType, c);
    }
  }

  /** The instances built, in order, from a list of containers. */
  function Built(ctor: SectionConstructor, cs: seq<Container>): (r: seq<Record>)
    ensures |r| == |cs|
  {
    if cs == [] then [] else [NewInstance(ctor, cs[0])] + Built(ctor, cs[1..])
  }

  class Sections {
    var constructors: map<string, SectionConstructor>
    var instances: seq<Record>

    constructor ()
      ensures constructors == map[] && instances == []
    {
      constructors := map[];
      instances := [];
    }

    /**
     * createInstance: the given constructor, or else the one registered for the
     * container's type; with neither, nothing happens.
     */
    method CreateInstance(container: Container, ctor: Option<SectionConstructor>)
      modifies this
      ensures constructors == old(constructors)
      ensures ctor.Some? ==> instances == old(instances) + [NewInstance(ctor.value, container)]
      ensures ctor.None? && container.sectionType in constructors ==>
        instances == old(instances) + [NewInstance(constructors[container.sectionType], container)]
      ensures ctor.None? && container.sectionType !in constructors ==> instances == old(instances)
    {
      var chosen := ctor;
      if chosen.None? && container.sectionType in constructors {
        chosen := Some(constructors[container.sectionType]);
      }
      if chosen.None? {
        return;
      }
      instances := instances + [NewInstance(chosen.value, container)];
    }

    /** _findInstance: the first instance whose id is `id`, or undefined. */
    method FindInstance(id: string) returns (r: Option<Record>)
      ensures r.Some? <==> FirstMatch(instances, "id", Str(id)).Some?
      ensures r.Some? ==> r.value == instances[FirstMatch(instances, "id", Str(id)).value]
    {
      var i := 0;
      while i < |instances|
        invariant 0 <= i <= |instances|
        invariant forall j :: 0 <= j < i ==> !KeyMatches(instances[j], "id", Str(id))
      {
        if StrictEquals(Get(instances[i], "id"), Str(id)) {
          return Some(instances[i]);
        }
        i := i + 1;
      }
      return None;
    }

    /**
     * _removeInstance: walks the instances from the end, splices out the first one
     * met whose id is `id` (the last in order) and returns it.
     */
    method RemoveInstance(id: string) returns (r: Option<Record>)
      modifies this
      ensures constructors == old(constructors)
      ensures instances == WithoutLastMatch(old(instances), "id", Str(id))
      ensures r.Some? <==> LastMatch(old(instances), "id", Str(id)).Some?
      ensures r.Some? ==> r.value == old(instances)[LastMatch(old(instances), "id", Str(id)).value]
    {
      var i := |instances|;
      while i > 0
        invariant 0 <= i <= |instances|
        invariant instances == old(instances)
        invariant forall j :: i <= j < |instances| ==> !KeyMatches(instances[j], "id", Str(id))
      {
        i := i - 1;
        if StrictEquals(Get(instances[i], "id"), Str(id)) {
          r := Some(instances[i]);
          instances := Spliced(instances, i);
          return;
        }
      }
      return None;
    }

    /**
     * register: records the constructor for its type, then builds one instance for
     * every container of that type on the page, in document order.
     */
    method Register(sectionType: string, ctor: SectionConstructor, page: seq<Container>)
      modifies this
      ensures constructors == old(constructors)[sectionType := ctor]
      ensures instances == old(instances) + Built(ctor, OfType(page, sectionType))
    {
      constructors := constructors[sectionType := ctor];
      ghost var registered := constructors;
      var selected := OfType(page, sectionType);
      var index := 0;
      while index < |selected|
        invariant 0 <= index <= |selected|
        invariant constructors == registered
        invariant instances == old(instances) + Built(ctor, selected[..index])
      {
        var container := selected[index];
        ghost var built := Built(ctor, selected[..index]);
        CreateInstance(container, Some(ctor));
        BuiltStep(ctor, selected, index);
        AppendAssoc(old(instances), built, [NewInstance(ctor, container)]);
        index := index + 1;
      }
      assert selected[..index] == selected;
    }
  }

  lemma AppendAssoc<T>(a: seq<T>, b: seq<T>, c: seq<T>)
    ensures a + b + c == a + (b + c)
  {
  }

  /** One more container builds one more instance at the end. */
  lemma {:induction false} BuiltStep(ctor: SectionConstructor, cs: seq<Container>, k: nat)
    requires k < |cs|
    ensures Built(ctor, cs[..k + 1]) == Built(ctor, cs[..k]) + [NewInstance(ctor, cs[k])]
  {
    assert cs[..k + 1] == cs[..k] + [cs[k]];
    BuiltConcat(ctor, cs[..k], [cs[k]]);
  }

  /** Building from two lists of containers is building from each in turn. */
  lemma {:induction false} BuiltConcat(ctor: SectionConstructor, a: seq<Container>, b: seq<Container>)
    ensures Built(ctor, a + b) == Built(ctor, a) + Built(ctor, b)
  {
    if a == [] {
      assert a + b == b;
    } else {
      assert (a + b)[0] == a[0];
      assert (a + b)[1..] == a[1..] + b;
      BuiltConcat(ctor, a[1..], b);
      var head := [NewInstance(ctor, a[0])];
      assert Built(ctor, a + b) == head + (Built(ctor, a[1..]) + Built(ctor, b));
      AppendAssoc(head, Built(ctor, a[1..]), Built(ctor, b));
    }
  }

  /** The k-th instance is built from the k-th container. */
  lemma {:induction false} BuiltElements(ctor: SectionConstructor, cs: seq<Container>, k: nat)
    requires k < |cs|
    ensures Built(ctor, cs)[k] == NewInstance(ctor, cs[k])
  {
    if k > 0 {
      BuiltElements(ctor, cs[1..], k - 1);
    }
  }
}

=== FILE: slate_utils.dfy ===
/**
 * slate.utils: array helpers over JavaScript values (assets/theme.js, lines 12-84).
 */
module SlateUtils {
  import opened Wrappers

  /** The JavaScript values the helpers inspect; an object is known by its identity. */
  datatype JsValue =
    | Undefined
    | Null
    | Bool(b: bool)
    | Number(x: real)
    | NaN
    | Str(s: string)
    | Object(ref: nat)

  /** JavaScript truthiness: false, 0, NaN, "", null and undefined are falsy. */
  predicate Truthy(v: JsValue) {
    match v
    case Undefined => false
    case Null => false
    case Bool(b) => b
    case Number(x) => x != 0.0
    case NaN => false
    case Str(s) => s != ""
    case Object(_) => true
  }

  /** `a === b`: same value, objects by identity, and NaN equal to nothing. */
  predicate StrictEquals(a: JsValue, b: JsValue) {
    a == b && a != NaN
  }

  /** An object read as a dictionary of properties. */
  type Record = map<string, JsValue>

  /** `r[key]`: a missing property reads as undefined. */
  function Get(r: Record, key: string): JsValue {
    if key in r then r[key] else Undefined
  }

  /** `r[key] === value`. */
  predicate KeyMatches(r: Record, key: string, value: JsValue) {
    StrictEquals(Get(r, key), value)
  }

  /** Index of the first record whose key matches, if any. */
  function FirstMatch(a: seq<Record>, key: string, value: JsValue): (r: Option<nat>)
    ensures r.Some? ==> r.value < |a| && KeyMatches(a[r.value], key, value)
    ensures r.Some? ==> forall j :: 0 <= j < r.value ==> !KeyMatches(a[j], key, value)
    ensures r.None? ==> forall j :: 0 <= j < |a| ==> !KeyMatches(a[j], key, value)
  {
    if a == [] then None
    else if KeyMatches(a[0], key, value) then Some(0)
    else match FirstMatch(a[1..], key, value)
      case None => None
      case Some(i) => Some(i + 1)
  }

  /** Index of the last record whose key matches, if any. */
  function LastMatch(a: seq<Record>, key: string, value: JsValue): (r: Option<nat>)
    ensures r.Some? ==> r.value < |a| && KeyMatches(a[r.value], key, value)
    ensures r.Some? ==> forall j :: r.value < j < |a| ==> !KeyMatches(a[j], key, value)
    ensures r.None? ==> forall j :: 0 <= j < |a| ==> !KeyMatches(a[j], key, value)
  {
    if a == [] then None
    else if KeyMatches(a[|a| - 1], key, value) then Some(|a| - 1)
    else LastMatch(a[..|a| - 1], key, value)
  }

  /** The sequence without its element at index i, as `splice(i, 1)` leaves an array. */
  function Spliced<T>(a: seq<T>, i: nat): (r: seq<T>)
    requires i < |a|
    ensures |r| == |a| - 1
    ensures forall j :: 0 <= j < i ==> r[j] == a[j]
    ensures forall j :: i <= j < |r| ==> r[j] == a[j + 1]
  {
    a[..i] + a[i + 1..]
  }

  /** The records left once the last one whose key matches is removed. */
  function WithoutLastMatch(a: seq<Record>, key: string, value: JsValue): seq<Record> {
    match LastMatch(a, key, value)
    case None => a
    case Some(i) => Spliced(a, i)
  }

  /** Removal takes out exactly one element, the last match, and nothing else. */
  lemma {:induction false} WithoutLastMatchRemovesOne(a: seq<Record>, key: string, value: JsValue)
    ensures LastMatch(a, key, value).None? ==> WithoutLastMatch(a, key, value) == a
    ensures LastMatch(a, key, value).Some? ==>
      var i := LastMatch(a, key, value).value;
      multiset(WithoutLastMatch(a, key, value)) + multiset{a[i]} == multiset(a) &&
      forall j :: i <= j < |WithoutLastMatch(a, key, value)| ==> !KeyMatches(WithoutLastMatch(a, key, value)[j], key, value)
  {
    if LastMatch(a, key, value).Some? {
      var i := LastMatch(a, key, value).value;
      assert a == a[..i] + [a[i]] + a[i + 1..];
    }
  }

  /** A JavaScript array of objects, which removeInstance changes in place. */
  class RecordArray {
    var items: seq<Record>

    constructor (items: seq<Record>)
      ensures this.items == items
    {
      this.items := items;
    }
  }

  /** slate.utils.findInstance: the first record whose `key` is `value`, or undefined. */
  method FindInstance(a: seq<Record>, key: string, value: JsValue) returns (r: Option<Record>)
    ensures r.Some? <==> FirstMatch(a, key, value).Some?
    ensures r.Some? ==> r.value == a[FirstMatch(a, key, value).value]
  {
    var i := 0;
    while i < |a|
      invariant 0 <= i <= |a|
      invariant forall j :: 0 <= j < i ==> !KeyMatches(a[j], key, value)
    {
      if StrictEquals(Get(a[i], key), value) {
        return Some(a[i]);
      }
      i := i + 1;
    }
    return None;
  }

  /**
   * slate.utils.removeInstance: walks the array from its end and splices out the
   * first record met whose `key` is `value` (so the last one in order), then
   * returns the same array.
   */
  method RemoveInstance(arr: RecordArray, key: string, value: JsValue) returns (r: RecordArray)
    modifies arr
    ensures r == arr
    ensures arr.items == WithoutLastMatch(old(arr.items), key, value)
  {
    var i := |arr.items|;
    while i > 0
      invariant 0 <= i <= |arr.items|
      invariant arr.items == old(arr.items)
      invariant forall j :: i <= j < |arr.items| ==> !KeyMatches(arr.items[j], key, value)
    {
      i := i - 1;
      if StrictEquals(Get(arr.items[i], key), value) {
        arr.items := Spliced(arr.items, i);
        return arr;
      }
    }
    return arr;
  }

  /** The elements `keep` accepts, in their order. */
  function Kept<T>(a: seq<T>, keep: T -> bool): (r: seq<T>)
    ensures |r| <= |a|
    ensures forall i :: 0 <= i < |r| ==> keep(r[i])
  {
    if a == [] then [] else (if keep(a[0]) then [a[0]] else []) + Kept(a[1..], keep)
  }

  /**
   * The lodash compact loop (slate.utils.compact, and Variants._compact with its
   * own notion of which entries are falsy): copy each accepted element to the
   * next free slot of a new array.
   */
  method Compact<T>(a: seq<T>, truthy: T -> bool) returns (result: seq<T>)
    ensures result == Kept(a, truthy)
  {
    result := [];
    var index := 0;
    while index < |a|
      invariant 0 <= index <= |a|
      invariant result + Kept(a[index..], truthy) == Kept(a, truthy)
    {
      var value := a[index];
      assert a[index..] == [value] + a[index + 1..];
      if truthy(value) {
        result := result + [value];
      }
      index := index + 1;
    }
  }

  /** Keeping distributes over concatenation, so kept elements stay in their order. */
  lemma {:induction false} KeptConcat<T>(a: seq<T>, b: seq<T>, keep: T -> bool)
    ensures Kept(a + b, keep) == Kept(a, keep) + Kept(b, keep)
  {
    if a != [] {
      assert (a + b)[0] == a[0] && (a + b)[1..] == a[1..] + b;
      KeptConcat(a[1..], b, keep);
      var head := if keep(a[0]) then [a[0]] else [];
      assert Kept(a + b, keep) == head + (Kept(a[1..], keep) + Kept(b, keep));
      assert head + (Kept(a[1..], keep) + Kept(b, keep)) == (head + Kept(a[1..], keep)) + Kept(b, keep);
    } else {
      assert a + b == b;
    }
  }

  /** Exactly the accepted elements survive, each as often as it occurs in the input. */
  lemma {:induction false} KeptCounts<T>(a: seq<T>, keep: T -> bool, x: T)
    ensures keep(x) ==> multiset(Kept(a, keep))[x] == multiset(a)[x]
    ensures !keep(x) ==> multiset(Kept(a, keep))[x] == 0
  {
    if a != [] {
      assert a == [a[0]] + a[1..];
      KeptCounts(a[1..], keep, x);
    }
  }

  /** slate.utils.compact over JavaScript values: drop the falsy ones. */
  method CompactValues(a: seq<JsValue>) returns (result: seq<JsValue>)
    ensures result == Kept(a, Truthy)
    ensures forall v :: Truthy(v) ==> multiset(result)[v] == multiset(a)[v]
    ensures forall v :: !Truthy(v) ==> v !in result
  {
    result := Compact(a, Truthy);
    forall v ensures Truthy(v) ==> multiset(result)[v] == multiset(a)[v]
      ensures !Truthy(v) ==> v !in result
    {
      KeptCounts(a, Truthy, v);
    }
  }

  /** slate.utils.defaultTo: the default stands in for null, undefined and NaN only. */
  function DefaultTo(value: JsValue, defaultValue: JsValue): (r: JsValue)
    ensures value in {Null, Undefined, NaN} ==> r == defaultValue
    ensures value !in {Null, Undefined, NaN} ==> r == value
  {
    if value == Null || value == Undefined || !StrictEquals(value, value) then defaultValue else value
  }

  /** Unlike `value || default`, defaultTo keeps the falsy values false, 0 and "". */
  lemma {:induction false} DefaultToKeepsFalsyValues(d: JsValue)
    ensures DefaultTo(Bool(false), d) == Bool(false)
    ensures DefaultTo(Number(0.0), d) == Number(0.0)
    ensures DefaultTo(Str(""), d) == Str("")
  {
  }
}

=== FILE: sticky_header.dfy ===
/**
 * The sticky site header of theme.HeaderSection (assets/theme.js, lines
 * 1548-1557 and 1750-1794): past a scroll offset of 250 the header sticks to
 * the top; back at or above it, it is released.
 */
module StickyHeader {

  /** The scroll offset past which the header sticks. */
  const Threshold: int := 250

  class StickyHeader {
    /** Whether the wrapper carried the overlay class when the header was set up. */
    const wrapperOverlayed: bool
    var stickyActive: bool
    /** The scroll offset at the last change of state (0 at set-up). */
    var lastScroll: int
    /** Whether the header carries the stuck class. */
    var headerStuck: bool
    /** Whether the wrapper carries the overlay class. */
    var wrapperLight: bool

    /**
     * The classes follow the state, and the offset last recorded lies on the
     * side of the threshold the state belongs to.
     */
    predicate Valid()
      reads this
    {
      && headerStuck == stickyActive
      && wrapperLight == (wrapperOverlayed && !stickyActive)
      && (lastScroll > Threshold <==> stickyActive)
    }

    /** stickyHeader: not yet stuck, last offset 0. */
    constructor (wrapperOverlayed: bool)
      ensures Valid()
      ensures this.wrapperOverlayed == wrapperOverlayed && !stickyActive && lastScroll == 0
    {
      this.wrapperOverlayed := wrapperOverlayed;
      stickyActive := false;
      lastScroll := 0;
      headerStuck := false;
      wrapperLight := wrapperOverlayed;
    }

    /**
     * stickyHeaderScroll: the header is stuck exactly when the offset is past
     * the threshold; the offset is recorded only when the state flips.
     */
    method OnScroll(scroll: int)
      requires Valid()
      modifies this
      ensures Valid()
      ensures stickyActive <==> scroll > Threshold
      ensures lastScroll == if stickyActive != old(stickyActive) then scroll else old(lastScroll)
    {
      if scroll > Threshold {
        if stickyActive {
          return;
        }
        stickyActive := true;
        headerStuck := true;
        if wrapperOverlayed {
          wrapperLight := false;
        }
      } else {
        if !stickyActive {
          return;
        }
        stickyActive := false;
        headerStuck := false;
        if wrapperOverlayed {
          wrapperLight := true;
        }
      }
      lastScroll := scroll;
    }
  }
}

=== FILE: testimonials.dfy ===
/**
 * How many testimonials theme.Testimonials shows and scrolls at once
 * (assets/theme.js, lines 3855-3892): three, or fewer when the section has
 * fewer blocks; one on small screens.
 */
module Testimonials {

  /** The slides shown (and scrolled) at once by default. */
  const DefaultSlides: int := 3

  /**
   * The clamp as written: it lowers the module-wide default to the section's
   * block count and leaves it lowered for every section built after it.
   */
  function ClampShared(shared: int, slideCount: nat): (r: int)
    ensures r <= shared && r <= slideCount
    ensures r == shared || r == slideCount
  {
    if slideCount < shared then slideCount else shared
  }

  /** The shared default after sections with these block counts were built, in order. */
  function SharedAfter(slideCounts: seq<nat>): (r: int)
    ensures 0 <= r <= DefaultSlides
    ensures slideCounts != [] ==> r <= slideCounts[|slideCounts| - 1]
    decreases |slideCounts|
  {
    if slideCounts == [] then DefaultSlides
    else ClampShared(SharedAfter(slideCounts[..|slideCounts| - 1]), slideCounts[|slideCounts| - 1])
  }

  /** As written, the default is the smallest block count seen so far, capped at three. */
  lemma {:induction false} SharedAfterIsRunningMinimum(slideCounts: seq<nat>)
    ensures SharedAfter(slideCounts) <= DefaultSlides
    ensures forall k :: 0 <= k < |slideCounts| ==> SharedAfter(slideCounts) <= slideCounts[k]
    ensures SharedAfter(slideCounts) == DefaultSlides || SharedAfter(slideCounts) in slideCounts
    decreases |slideCounts|
  {
    if slideCounts != [] {
      var init := slideCounts[..|slideCounts| - 1];
      SharedAfterIsRunningMinimum(init);
      assert forall k :: 0 <= k < |init| ==> init[k] == slideCounts[k];
      if SharedAfter(init) in init {
        var k :| 0 <= k < |init| && init[k] == SharedAfter(init);
        assert slideCounts[k] == SharedAfter(init);
      }
    }
  }

  /** The intended count for a section: three, or its block count when it has fewer. */
  function SlidesFor(slideCount: nat): (r: int)
    ensures r <= DefaultSlides && r <= slideCount
    ensures r == DefaultSlides || r == slideCount
  {
    if slideCount < DefaultSlides then slideCount else DefaultSlides
  }

  /**
   * A one-block section built before a five-block one leaves the second
   * showing one slide at a time instead of three.
   */
  lemma {:induction false} SharedClampLeaksIntoLaterSections()
    ensures SharedAfter([1, 5]) == 1
    ensures SlidesFor(5) == 3
  {
    assert [1, 5][..1] == [1];
    assert [1][..0] == [];
  }

  /** The intended count depends on the section alone, whatever was built before. */
  lemma {:induction false} SlidesForIgnoresEarlierSections(earlier: seq<nat>, slideCount: nat)
    ensures SlidesFor(slideCount) == ClampShared(DefaultSlides, slideCount)
    ensures SharedAfter(earlier + [slideCount]) <= SlidesFor(slideCount)
  {
    assert (earlier + [slideCount])[..|earlier|] == earlier;
    SharedAfterIsRunningMinimum(earlier);
  }

  /** One testimonials section: the carousel options it is started with. */
  class Testimonials {
    const slideCount: nat
    var slidesToShow: int
    var slidesToScroll: int

    /**
     * The section constructor, with the clamp kept to the section's own
     * options: one slide on small screens, otherwise SlidesFor(slideCount).
     */
    constructor (slideCount: nat, small: bool)
      ensures this.slideCount == slideCount
      ensures slidesToShow == slidesToScroll
      ensures slidesToShow <= slideCount || small
      ensures slidesToShow == if small then 1 else SlidesFor(slideCount)
    {
      this.slideCount := slideCount;
      if small {
        slidesToShow := 1;
        slidesToScroll := 1;
      } else {
        slidesToShow := SlidesFor(slideCount);
        slidesToScroll := SlidesFor(slideCount);
      }
    }

    /** The `matchSmall` and `matchLarge` handlers restart the carousel with the mobile or the section's options. */
    method OnBreakpoint(small: bool)
      modifies this
      ensures slidesToShow == slidesToScroll
      ensures slidesToShow == if small then 1 else SlidesFor(slideCount)
    {
      if small {
        slidesToShow := 1;
        slidesToScroll := 1;
      } else {
        slidesToShow := SlidesFor(slideCount);
        slidesToScroll := SlidesFor(slideCount);
      }
    }
  }
}

=== FILE: variants.dfy ===
/**
 * slate.Variants (assets/theme.js, lines 509-669): reads the product's option
 * controls, finds the variant they select, and announces what changed.
 */
module Variants {
  import opened Wrappers
  import opened Numerals
  import SlateUtils

  // ---------------------------------------------------------------------------
  // Catalog

  /** A featured image; images are compared by `src` only. */
  datatype Image = Image(id: nat, src: string)

  /**
   * A variant record. `optionFields` holds its `option1`, `option2`, ... properties,
   * the ones an option control's data-index names.
   */
  datatype Variant = Variant(
    id: nat,
    optionFields: map<string, string>,
    price: int,
    compareAtPrice: Option<int>,
    sku: Option<string>,
    available: bool,
    featuredImage: Option<Image>)

  // ---------------------------------------------------------------------------
  // _getCurrentOptions

  datatype ControlKind = Radio | Checkbox | Select

  /** One option control: its kind, whether it is checked, its value and its data-index. */
  datatype Control = Control(kind: ControlKind, checked: bool, value: string, index: string)

  /** What the `$.map` callback yields for one control: `false`, or `{value, index}`. */
  datatype CurrentOption = Unchecked | Chosen(value: string, index: string)

  /** A control that takes part in the selection: a checked radio or checkbox, or any other control. */
  predicate Active(c: Control) {
    c.kind == Select || c.checked
  }

  /** The `$.map` callback: an unchecked radio or checkbox yields false. */
  function CurrentOptionOf(c: Control): (o: CurrentOption)
    ensures o.Chosen? <==> Active(c)
    ensures o.Chosen? ==> o.value == c.value && o.index == c.index
  {
    if c.kind == Radio || c.kind == Checkbox then
      if c.checked then Chosen(c.value, c.index) else Unchecked
    else Chosen(c.value, c.index)
  }

  /** The mapped array, one entry per control in document order. */
  function CurrentOptions(controls: seq<Control>): (r: seq<CurrentOption>)
    ensures |r| == |controls|
    ensures forall k :: 0 <= k < |r| ==> r[k] == CurrentOptionOf(controls[k])
  {
    seq(|controls|, k requires 0 <= k < |controls| => CurrentOptionOf(controls[k]))
  }

  /** The `false` entries are the falsy ones `_compact` drops. */
  predicate IsChosen(o: CurrentOption) {
    o.Chosen?
  }

  /** The selection the controls show: the mapped array with its falsy entries dropped. */
  function Selection(controls: seq<Control>): seq<CurrentOption> {
    SlateUtils.Kept(CurrentOptions(controls), IsChosen)
  }

  /** An active control's pair is in the selection, and only those pairs are. */
  lemma {:induction false} SelectionIsActiveControls(controls: seq<Control>, o: CurrentOption)
    ensures o in Selection(controls) <==>
      exists k :: 0 <= k < |controls| && Active(controls[k]) && o == Chosen(controls[k].value, controls[k].index)
  {
    var mapped := CurrentOptions(controls);
    SlateUtils.KeptCounts(mapped, IsChosen, o);
    if o in Selection(controls) {
      assert o in mapped;
      var k :| 0 <= k < |mapped| && mapped[k] == o;
      assert Active(controls[k]);
    }
  }

  // ---------------------------------------------------------------------------
  // _getVariantFromOptions

  /** `variant[option.index] === option.value`; an unchecked entry puts no constraint. */
  predicate Agrees(v: Variant, o: CurrentOption) {
    match o
    case Unchecked => true
    case Chosen(value, index) => index in v.optionFields && v.optionFields[index] == value
  }

  /** The variant agrees with every selected option. */
  predicate MatchesAll(v: Variant, selection: seq<CurrentOption>) {
    forall k :: 0 <= k < |selection| ==> Agrees(v, selection[k])
  }

  /** The index of the last variant in catalog order that agrees with the selection. */
  function LastMatchIndex(variants: seq<Variant>, selection: seq<CurrentOption>): (r: Option<nat>)
    ensures r.Some? ==> r.value < |variants| && MatchesAll(variants[r.value], selection)
    ensures r.Some? ==> forall j :: r.value < j < |variants| ==> !MatchesAll(variants[j], selection)
    ensures r.None? ==> forall j :: 0 <= j < |variants| ==> !MatchesAll(variants[j], selection)
  {
    if variants == [] then None
    else if MatchesAll(variants[|variants| - 1], selection) then Some(|variants| - 1)
    else LastMatchIndex(variants[..|variants| - 1], selection)
  }

  /** The variant the scan ends with, or null. */
  function Found(variants: seq<Variant>, selection: seq<CurrentOption>): (r: Option<Variant>)
    ensures r.None? <==> forall j :: 0 <= j < |variants| ==> !MatchesAll(variants[j], selection)
    ensures r.Some? ==> MatchesAll(r.value, selection)
    ensures r.Some? ==>
      exists i :: 0 <= i < |variants| && variants[i] == r.value &&
        forall j :: i < j < |variants| ==> !MatchesAll(variants[j], selection)
  {
    match LastMatchIndex(variants, selection)
    case None => None
    case Some(i) => Some(variants[i])
  }

  /** Unchecked radios and checkboxes constrain nothing: a variant matches iff it agrees with every active control. */
  lemma {:induction false} MatchIffAgreesWithActiveControls(v: Variant, controls: seq<Control>)
    ensures MatchesAll(v, Selection(controls)) <==>
      forall k :: 0 <= k < |controls| && Active(controls[k]) ==> Agrees(v, CurrentOptionOf(controls[k]))
  {
    var sel := Selection(controls);
    if MatchesAll(v, sel) {
      forall k | 0 <= k < |controls| && Active(controls[k])
        ensures Agrees(v, CurrentOptionOf(controls[k]))
      {
        SelectionIsActiveControls(controls, CurrentOptionOf(controls[k]));
      }
    }
    if forall k :: 0 <= k < |controls| && Active(controls[k]) ==> Agrees(v, CurrentOptionOf(controls[k])) {
      forall j | 0 <= j < |sel| ensures Agrees(v, sel[j]) {
        SelectionIsActiveControls(controls, sel[j]);
      }
    }
  }

  /** When exactly one variant agrees with the selection, that one is found. */
  lemma {:induction false} UniqueMatchIsFound(variants: seq<Variant>, selection: seq<CurrentOption>, i: nat)
    requires i < |variants| && MatchesAll(variants[i], selection)
    requires forall j :: 0 <= j < |variants| && j != i ==> !MatchesAll(variants[j], selection)
    ensures Found(variants, selection) == Some(variants[i])
  {
  }

  /** Of two agreeing variants the later one wins; the scan does not stop at the first. */
  lemma {:induction false} LaterMatchWins(first: Variant, second: Variant, selection: seq<CurrentOption>)
    requires MatchesAll(first, selection) && MatchesAll(second, selection)
    ensures Found([first, second], selection) == Some(second)
  {
  }

  // ---------------------------------------------------------------------------
  // Events

  /** The custom events triggered on the section's container. */
  datatype Event =
    | VariantChange(variant: Option<Variant>)
    | VariantImageChange(changed: Variant)
    | VariantPriceChange(changed: Variant)
    | VariantSKUChange(changed: Variant)

  /** `_updateImages`: the new variant has a featured image whose src is not the current one's. */
  predicate ImageChanged(v: Variant, current: Option<Variant>) {
    v.featuredImage.Some? &&
    (current.None? || current.value.featuredImage.None? || v.featuredImage.value.src != current.value.featuredImage.value.src)
  }

  /** `_updatePrice`: price or compare-at price differs. */
  predicate PriceChanged(v: Variant, current: Option<Variant>) {
    current.None? || v.price != current.value.price || v.compareAtPrice != current.value.compareAtPrice
  }

  /** `_updateSKU`: the sku differs. */
  predicate SkuChanged(v: Variant, current: Option<Variant>) {
    current.None? || v.sku != current.value.sku
  }

  /**
   * The events one change emits: always `variantChange`, then, on a match, the
   * image, price and SKU events in that order, each only if its attribute
   * differs from the current variant's. With no current variant every applicable
   * event fires (see the finding in README.md).
   */
  function ChangeEvents(current: Option<Variant>, found: Option<Variant>): (r: seq<Event>)
    ensures 1 <= |r| <= 4 && r[0] == VariantChange(found)
    ensures found.None? ==> |r| == 1
  {
    [VariantChange(found)] +
    match found
    case None => []
    case Some(v) => ImageEvents(v, current) + PriceEvents(v, current) + SkuEvents(v, current)
  }

  /** What `_updateImages` triggers. */
  function ImageEvents(v: Variant, current: Option<Variant>): seq<Event> {
    if ImageChanged(v, current) then [VariantImageChange(v)] else []
  }

  /** What `_updatePrice` triggers. */
  function PriceEvents(v: Variant, current: Option<Variant>): seq<Event> {
    if PriceChanged(v, current) then [VariantPriceChange(v)] else []
  }

  /** What `_updateSKU` triggers. */
  function SkuEvents(v: Variant, current: Option<Variant>): seq<Event> {
    if SkuChanged(v, current) then [VariantSKUChange(v)] else []
  }

  /** The rank of an event in the fixed emission order. */
  function Rank(e: Event): nat {
    match e
    case VariantChange(_) => 0
    case VariantImageChange(_) => 1
    case VariantPriceChange(_) => 2
    case VariantSKUChange(_) => 3
  }

  /**
   * `variantChange` comes first and carries the match; each diff event carries
   * the new variant, fires iff its attribute differs, and the order is change,
   * image, price, SKU with no repeats.
   */
  lemma {:induction false} ChangeEventsOrder(current: Option<Variant>, found: Option<Variant>)
    ensures var es := ChangeEvents(current, found);
      && es[0] == VariantChange(found)
      && (forall k :: 1 <= k < |es| ==> found.Some? && !es[k].VariantChange? && es[k].changed == found.value)
      && (forall j, k :: 0 <= j < k < |es| ==> Rank(es[j]) < Rank(es[k]))
  {
  }

  /** Each diff event fires iff the match differs from the current variant in that attribute. */
  lemma {:induction false} ChangeEventsDiff(current: Option<Variant>, v: Variant)
    ensures VariantImageChange(v) in ChangeEvents(current, Some(v)) <==> ImageChanged(v, current)
    ensures VariantPriceChange(v) in ChangeEvents(current, Some(v)) <==> PriceChanged(v, current)
    ensures VariantSKUChange(v) in ChangeEvents(current, Some(v)) <==> SkuChanged(v, current)
  {
    var es := ChangeEvents(current, Some(v));
    if VariantImageChange(v) in es {
      var k :| 0 <= k < |es| && es[k] == VariantImageChange(v);
    }
    if VariantPriceChange(v) in es {
      var k :| 0 <= k < |es| && es[k] == VariantPriceChange(v);
    }
    if VariantSKUChange(v) in es {
      var k :| 0 <= k < |es| && es[k] == VariantSKUChange(v);
    }
  }

  /** No match: the only event is `variantChange` carrying null. */
  lemma {:induction false} NoMatchEmitsOnlyChange(current: Option<Variant>)
    ensures ChangeEvents(current, None) == [VariantChange(None)]
  {
  }

  /**
   * A variant showing the same price, compare-at price, sku and image src as the
   * current one (whatever its id) brings `variantChange` alone; a second change
   * to the same variant is the special case v == w.
   */
  lemma {:induction false} SameDisplayedAttributesNoDiff(v: Variant, w: Variant)
    requires v.price == w.price && v.compareAtPrice == w.compareAtPrice && v.sku == w.sku
    requires v.featuredImage.Some? ==> w.featuredImage.Some? && v.featuredImage.value.src == w.featuredImage.value.src
    ensures ChangeEvents(Some(w), Some(v)) == [VariantChange(Some(v))]
  {
  }

  // ---------------------------------------------------------------------------
  // The selector object

  /** window.location, of which the history URL keeps scheme, host and path. */
  datatype Location = Location(protocol: string, host: string, pathname: string)

  /** The URL `_updateHistoryState` puts in place of the current one. */
  function HistoryUrl(loc: Location, id: nat): (u: string)
    ensures |u| == |loc.protocol| + 2 + |loc.host| + |loc.pathname| + 9 + |NatToString(id)|
    ensures u[..|loc.protocol| + 2] == loc.protocol + "//"
    ensures u[|u| - |NatToString(id)| - 9..] == "?variant=" + NatToString(id)
    ensures u[|loc.protocol| + 2..|u| - |NatToString(id)| - 9] == loc.host + loc.pathname
  {
    loc.protocol + "//" + loc.host + loc.pathname + "?variant=" + NatToString(id)
  }

  /** The variant id reads back from the tail of the history URL. */
  lemma {:induction false} HistoryUrlNamesVariant(loc: Location, id: nat)
    ensures var u := HistoryUrl(loc, id);
      var n := |NatToString(id)|;
      AllDigits(u[|u| - n..]) && DigitsValue(u[|u| - n..]) == id
  {
    var u := HistoryUrl(loc, id);
    var n := |NatToString(id)|;
    assert u[|u| - n..] == ("?variant=" + NatToString(id))[9..];
    assert u[|u| - n..] == NatToString(id);
    NatToStringRoundTrip(id);
  }

  /** Appending five pieces one after the other is appending the last four joined. */
  lemma AppendChain<T>(a: seq<T>, b: seq<T>, c: seq<T>, d: seq<T>, e: seq<T>)
    ensures a + b + c + d + e == a + (b + (c + d + e))
  {
  }

  /** A Variants instance: its catalog and settings, and the state its handlers change. */
  class VariantSelector {
    const variants: seq<Variant>
    const enableHistoryState: bool
    /** Whether the browser offers `history.replaceState`. */
    const historySupported: bool
    const location: Location

    var currentVariant: Option<Variant>
    /** Every event triggered on the container so far, oldest first. */
    var events: seq<Event>
    /** The value of the original (master) select element. */
    var masterSelect: string
    /** The URL last put in place by `replaceState`, if any. */
    var historyUrl: Option<string>

    /** The constructor matches the controls as they stand at page load. */
    constructor (variants: seq<Variant>, controls: seq<Control>, enableHistoryState: bool,
                 historySupported: bool, location: Location, masterSelect: string)
      ensures this.variants == variants && this.enableHistoryState == enableHistoryState
      ensures this.historySupported == historySupported && this.location == location
      ensures currentVariant == Found(variants, Selection(controls))
      ensures events == [] && this.masterSelect == masterSelect && historyUrl == None
    {
      this.variants := variants;
      this.enableHistoryState := enableHistoryState;
      this.historySupported := historySupported;
      this.location := location;
      this.masterSelect := masterSelect;
      events := [];
      historyUrl := None;
      new;
      currentVariant := GetVariantFromOptions(controls);
    }

    /** `_getCurrentOptions`: the mapped controls, compacted. */
    method GetCurrentOptions(controls: seq<Control>) returns (selection: seq<CurrentOption>)
      ensures selection == Selection(controls)
      ensures forall k :: 0 <= k < |selection| ==> selection[k].Chosen?
    {
      selection := SlateUtils.Compact(CurrentOptions(controls), IsChosen);
    }

    /**
     * `_getVariantFromOptions`: every variant is tried against every selected
     * option, and each one that agrees overwrites `found`.
     */
    method GetVariantFromOptions(controls: seq<Control>) returns (found: Option<Variant>)
      ensures found == Found(variants, Selection(controls))
      ensures found.Some? ==> found.value in variants && MatchesAll(found.value, Selection(controls))
    {
      var selectedValues := GetCurrentOptions(controls);
      found := None;
      var i := 0;
      while i < |variants|
        invariant 0 <= i <= |variants|
        invariant found == Found(variants[..i], selectedValues)
      {
        var variant := variants[i];
        var matches := true;
        var j := 0;
        while j < |selectedValues|
          invariant 0 <= j <= |selectedValues|
          invariant matches <==> forall k :: 0 <= k < j ==> Agrees(variant, selectedValues[k])
        {
          if matches {
            matches := Agrees(variant, selectedValues[j]);
          }
          j := j + 1;
        }
        assert variants[..i + 1][..i] == variants[..i];
        if matches {
          found := Some(variant);
        }
        i := i + 1;
      }
      assert variants[..i] == variants;
    }

    /** `_onSelectChange`, run by every change event on an option control. */
    method OnSelectChange(controls: seq<Control>)
      modifies this
      ensures var found := Found(variants, Selection(controls));
        && events == old(events) + ChangeEvents(old(currentVariant), found)
        && (found.None? ==> currentVariant == old(currentVariant) && masterSelect == old(masterSelect) && historyUrl == old(historyUrl))
        && (found.Some? ==> currentVariant == found && masterSelect == NatToString(found.value.id))
        && (found.Some? && enableHistoryState && historySupported ==> historyUrl == Some(HistoryUrl(location, found.value.id)))
        && (found.Some? && !(enableHistoryState && historySupported) ==> historyUrl == old(historyUrl))
    {
      var variant := GetVariantFromOptions(controls);
      events := events + [VariantChange(variant)];
      if variant.None? {
        return;
      }
      var v := variant.value;
      ghost var before := old(events);
      ghost var current := currentVariant;
      UpdateMasterSelect(v);
      UpdateImages(v);
      UpdatePrice(v);
      UpdateSKU(v);
      AppendChain(before, [VariantChange(variant)], ImageEvents(v, current), PriceEvents(v, current), SkuEvents(v, current));
      assert events == before + ChangeEvents(current, variant);
      currentVariant := variant;
      if enableHistoryState {
        UpdateHistoryState(v);
      }
    }

    /** `_updateImages`. */
    method UpdateImages(v: Variant)
      modifies this
      ensures events == old(events) + ImageEvents(v, currentVariant)
      ensures currentVariant == old(currentVariant) && masterSelect == old(masterSelect) && historyUrl == old(historyUrl)
    {
      if v.featuredImage.None? {
        return;
      }
      if currentVariant.Some? && currentVariant.value.featuredImage.Some?
        && v.featuredImage.value.src == currentVariant.value.featuredImage.value.src {
        return;
      }
      events := events + [VariantImageChange(v)];
    }

    /** `_updatePrice`. */
    method UpdatePrice(v: Variant)
      modifies this
      ensures events == old(events) + PriceEvents(v, currentVariant)
      ensures currentVariant == old(currentVariant) && masterSelect == old(masterSelect) && historyUrl == old(historyUrl)
    {
      if currentVariant.Some? && v.price == currentVariant.value.price
        && v.compareAtPrice == currentVariant.value.compareAtPrice {
        return;
      }
      events := events + [VariantPriceChange(v)];
    }

    /** `_updateSKU`. */
    method UpdateSKU(v: Variant)
      modifies this
      ensures events == old(events) + SkuEvents(v, currentVariant)
      ensures currentVariant == old(currentVariant) && masterSelect == old(masterSelect) && historyUrl == old(historyUrl)
    {
      if currentVariant.Some? && v.sku == currentVariant.value.sku {
        return;
      }
      events := events + [VariantSKUChange(v)];
    }

    /** `_updateHistoryState`: replace the URL when the browser supports it. */
    method UpdateHistoryState(v: Variant)
      modifies this
      ensures historyUrl == if historySupported then Some(HistoryUrl(location, v.id)) else old(historyUrl)
      ensures events == old(events) && currentVariant == old(currentVariant) && masterSelect == old(masterSelect)
    {
      if !historySupported {
        return;
      }
      historyUrl := Some(HistoryUrl(location, v.id));
    }

    /** `_updateMasterSelect`: the master select takes the variant id as its value. */
    method UpdateMasterSelect(v: Variant)
      modifies this
      ensures masterSelect == NatToString(v.id) && DigitsValue(masterSelect) == v.id
      ensures events == old(events) && currentVariant == old(currentVariant) && historyUrl == old(historyUrl)
    {
      masterSelect := NatToString(v.id);
      NatToStringRoundTrip(v.id);
    }
  }

  /** Two changes with the same selection: the second brings `variantChange` alone. */
  lemma {:induction false} SecondChangeEmitsOnlyChange(current: Option<Variant>, found: Option<Variant>)
    ensures var next := if found.Some? then found else current;
      ChangeEvents(next, found) == [VariantChange(found)]
  {
    if found.Some? {
      SameDisplayedAttributesNoDiff(found.value, found.value);
    }
  }

  // ---------------------------------------------------------------------------
  // The change handler as written, without a current variant

  /** What one run of `_onSelectChange` leaves: the events, the current variant, and whether it threw. */
  datatype Outcome = Outcome(events: seq<Event>, current: Option<Variant>, threw: bool)

  /**
   * `_onSelectChange` as written. When no variant matched at construction,
   * `currentVariant` is null and `_updateImages` reads `featured_image` of null:
   * the TypeError ends the handler after `variantChange`, before `currentVariant`
   * is assigned (the master select is not part of the outcome).
   */
  function OnSelectChangeAsWritten(current: Option<Variant>, found: Option<Variant>): (r: Outcome)
    ensures r.threw <==> found.Some? && current.None?
    ensures r.threw ==> r.events == [VariantChange(found)] && r.current.None?
    ensures !r.threw ==> r.events == ChangeEvents(current, found) && r.current == (if found.Some? then found else current)
  {
    if found.None? then Outcome([VariantChange(None)], current, false)
    else if current.None? then Outcome([VariantChange(found)], None, true)
    else Outcome(ChangeEvents(current, found), found, false)
  }

  /** Successive change events, as written, from a given current variant. */
  function RunAsWritten(current: Option<Variant>, founds: seq<Option<Variant>>): Outcome
    decreases |founds|
  {
    if founds == [] then Outcome([], current, false)
    else
      var first := OnSelectChangeAsWritten(current, founds[0]);
      var rest := RunAsWritten(first.current, founds[1..]);
      Outcome(first.events + rest.events, rest.current, first.threw || rest.threw)
  }

  /** With a current variant the code as written does what ChangeEvents describes. */
  lemma {:induction false} AsWrittenAgreesWithCurrent(c: Variant, found: Option<Variant>)
    ensures OnSelectChangeAsWritten(Some(c), found) ==
      Outcome(ChangeEvents(Some(c), found), if found.Some? then found else Some(c), false)
  {
  }

  /**
   * Once `currentVariant` starts null it stays null: every later change emits
   * `variantChange` only, and any change that matches throws.
   */
  lemma {:induction false} AsWrittenNeverRecovers(founds: seq<Option<Variant>>)
    ensures RunAsWritten(None, founds).current == None
    ensures forall k :: 0 <= k < |RunAsWritten(None, founds).events| ==> RunAsWritten(None, founds).events[k].VariantChange?
    ensures (exists k :: 0 <= k < |founds| && founds[k].Some?) ==> RunAsWritten(None, founds).threw
    decreases |founds|
  {
    if founds != [] {
      AsWrittenNeverRecovers(founds[1..]);
      if founds[0].None? {
        assert forall k :: 1 <= k < |founds| ==> founds[k] == founds[1..][k - 1];
      }
    }
  }

  /** Without a current variant, a match as intended is announced in full and becomes current. */
  lemma {:induction false} MatchWithoutCurrentIsAnnounced(v: Variant)
    ensures VariantPriceChange(v) in ChangeEvents(None, Some(v))
    ensures VariantSKUChange(v) in ChangeEvents(None, Some(v))
    ensures VariantImageChange(v) in ChangeEvents(None, Some(v)) <==> v.featuredImage.Some?
  {
    ChangeEventsDiff(None, v);
  }

  // ---------------------------------------------------------------------------
  // Example: two options (Color, Size) and three variants

  /** Selecting Blue and S picks variant 3 and announces its price alone. */
  lemma {:induction false} ColorSizeExample(red_s: Variant, red_m: Variant, blue_s: Variant, blue: seq<Control>)
    requires red_s == Variant(1, map["option1" := "Red", "option2" := "S"], 1000, None, None, true, None)
    requires red_m == Variant(2, map["option1" := "Red", "option2" := "M"], 1200, None, None, true, None)
    requires blue_s == Variant(3, map["option1" := "Blue", "option2" := "S"], 1100, None, None, false, None)
    requires blue == [Control(Select, false, "Blue", "option1"), Control(Select, false, "S", "option2")]
    ensures Found([red_s, red_m, blue_s], Selection(blue)) == Some(blue_s)
    ensures ChangeEvents(Some(red_s), Some(blue_s)) == [VariantChange(Some(blue_s)), VariantPriceChange(blue_s)]
  {
    var sel := [Chosen("Blue", "option1"), Chosen("S", "option2")];
    assert CurrentOptions(blue) == sel;
    assert Selection(blue) == sel;
    assert MatchesAll(blue_s, sel);
    assert ImageEvents(blue_s, Some(red_s)) == [] && SkuEvents(blue_s, Some(red_s)) == [];
    assert PriceEvents(blue_s, Some(red_s)) == [VariantPriceChange(blue_s)];
  }

  /** Green and S matches no variant of the same catalog. */
  lemma {:induction false} ColorSizeNoMatch(red_s: Variant, red_m: Variant, blue_s: Variant, green: seq<Control>)
    requires red_s == Variant(1, map["option1" := "Red", "option2" := "S"], 1000, None, None, true, None)
    requires red_m == Variant(2, map["option1" := "Red", "option2" := "M"], 1200, None, None, true, None)
    requires blue_s == Variant(3, map["option1" := "Blue", "option2" := "S"], 1100, None, None, false, None)
    requires green == [Control(Select, false, "Green", "option1"), Control(Select, false, "S", "option2")]
    ensures Found([red_s, red_m, blue_s], Selection(green)) == None
  {
    var gsel := [Chosen("Green", "option1"), Chosen("S", "option2")];
    assert CurrentOptions(green) == gsel;
    assert Selection(green) == gsel;
    assert !Agrees(red_s, gsel[0]) && !Agrees(red_m, gsel[0]) && !Agrees(blue_s, gsel[0]);
  }
}

=== FILE: wrappers.dfy ===
/** Option and Result, as the rest of the model uses them. */
module Wrappers {

  /** A value that may be absent: JavaScript's `null`/`undefined` results. */
  datatype Option<+T> = None | Some(value: T)

  /** A computation that either produces a value or throws. */
  datatype Result<+R, +E> = Success(value: R) | Failure(error: E)
}
